=== FILE: README.md ===
# alx-backend-user-data, modelled in Dafny

This project models the core of the user-data back-end exercises.

- **Log redaction** (`0x00-personal_data/filtered_logger.py`). `filter_datum` finds, for each sensitive field name, the value written after it in a log line. It then replaces every occurrence of those values with a redaction string.
- **Basic-authentication API gate** (`0x01-Basic_authentication/api/v1/auth/auth.py`). `require_auth` decides whether a request path needs authentication. A path is exempt when its slash-terminated form is one of the excluded paths. The header and current-user accessors of the base class always answer None.
- **Scheme-token step of HTTP Basic authentication** (`basic_auth.py`). `extract_base64_authorization_header` takes `Basic <credentials>` and returns `<credentials>`.
- **Session-authentication API gate** (`0x02-Session_authentication/api/v1/auth/auth.py`). This gate adds wildcard exclusions ending in `*` to the exact ones. It also reads the `Authorization` header and the session cookie. The cookie's name comes from the `SESSION_NAME` environment variable, or defaults to `_my_session_id`.
- **User-authentication service** (`0x03-user_authentication_service`).
  - `user.py`: the `users` table.
  - `db.py`: the `DB` class with `add_user`, `find_user_by` and `update_user`.
  - `auth.py`: the `Auth` class with registration, login check, sessions and password reset.

How the modules are built:

- The `Strings` module models the Python string operations the code relies on: `in`, `split(sep)` and `split(sep, 1)`.
- The service is modelled in two layers:
  - Each `Auth` operation is a transition function on the table (`RegisterStep`, `CreateSessionStep` and so on). Each one returns the new rows and the operation's result.
  - The `Auth` and `DB` classes hold the mutable state. Each method ensures that the new state and the result are exactly what the transition function gives for the old state.
  - The multi-step properties are lemmas over the transition functions: register then log in, reset then log in, and redeem twice.
- `filter_datum` is an imperative method with the source's nested loops, including the `break`. It is proved against `Collected` (the list the first loop builds) and `RedactAll` (the fold of `re.sub` over that list).
- Randomness is passed in as parameters. The bcrypt salt is a 29-character string. The uuid4 session and reset tokens are strings. bcrypt itself is a key-derivation function `kdf` given to the service. A hash is the salt followed by `kdf(password, salt)`. `checkpw` re-derives the digest with the salt read back from the hash.

The docstring of `filter_datum` gives `User:[REDACTED];Password:[REDACTED]` as its example output. The code replaces only the values, so the `=` after each field name stays. The model follows the code.

## Model

| member | source | states |
|---|---|---|
| Strings.Contains | 0x00-personal_data/filtered_logger.py:36-39 | Python `t in s`. The empty string is in every string. A contained string is no longer than the string that contains it, and one of the same length is contained exactly when the two are equal. |
| Strings.Find | 0x01-Basic_authentication/api/v1/auth/basic_auth.py:35 | Python `s.find(t)`, on which `split(sep, 1)` rests. It returns the first index where `t` occurs, and None (Python's `-1`) exactly when `t` is not in `s`. |
| Strings.Split | 0x00-personal_data/filtered_logger.py:37 | `s.split(sep)` has at least one piece. |
| Strings.JoinSplit | 0x00-personal_data/filtered_logger.py:37 | Joining the pieces of `split(sep)` with `sep` gives the string back. |
| Strings.SplitFromPiecesAvoidSep | 0x00-personal_data/filtered_logger.py:37 | No piece of a split on a one-character separator contains that character. |
| Strings.SplitAtOccurringChar | 0x00-personal_data/filtered_logger.py:41 | Splitting on a character the string contains gives at least two pieces, so `[1]` exists. |
| Strings.SplitOnce | 0x01-Basic_authentication/api/v1/auth/basic_auth.py:35 | `split(sep, 1)` gives one piece exactly when `sep` does not occur. Otherwise it gives two pieces `a`, `b` with `s == a + sep + b`, where `a` does not contain `sep`. |
| BasicGate.Normalise | 0x01-Basic_authentication/api/v1/auth/auth.py:30 | The result ends in `/` and extends the path by at most that slash. It equals the path exactly when the path already ends in `/`. |
| BasicGate.RequireAuth | 0x01-Basic_authentication/api/v1/auth/auth.py:15-33 | True when the path is None, the list is None or the list is empty. Otherwise false exactly when the normalised path is in the list. |
| BasicGate.NormaliseIdempotent | 0x01-Basic_authentication/api/v1/auth/auth.py:30 | Normalising twice is the same as normalising once. |
| BasicGate.TrailingSlashIrrelevant | 0x01-Basic_authentication/api/v1/auth/auth.py:24-30 | For a path `p` not ending in `/`, `p` and `p/` always get the same answer (slash tolerance). |
| BasicGate.MoreExclusionsRelaxOnly | 0x01-Basic_authentication/api/v1/auth/auth.py:28-33 | A path exempted by a list is exempted by every larger list. |
| BasicGate.ExactExclusionExamples | 0x01-Basic_authentication/api/v1/auth/auth.py:28-33 | `/api/v1/status` and `/api/v1/status/` are exempted by `/api/v1/status/`. They are not exempted by the unslashed entry. An empty list or a None path requires authentication. |
| BasicGate.AuthorizationHeader | 0x01-Basic_authentication/api/v1/auth/auth.py:35-45 | The base class always returns None. |
| BasicGate.CurrentUser | 0x01-Basic_authentication/api/v1/auth/auth.py:47-58 | The base class always returns None. |
| BasicAuth.ExtractBase64AuthorizationHeader | 0x01-Basic_authentication/api/v1/auth/basic_auth.py:15-38 | None for a None header. None exactly when the text before the first space is not `Basic`. IndexError exactly for the header `Basic`. Any value returned is what follows `Basic `. |
| BasicAuth.SchemeOfWord | 0x01-Basic_authentication/api/v1/auth/basic_auth.py:35 | For a scheme word without spaces, `split(' ', 1)` separates exactly that word from the rest. |
| BasicAuth.SchemeOfBasic | 0x01-Basic_authentication/api/v1/auth/basic_auth.py:35-36 | `Basic v` splits into `Basic` and `v`, whatever `v` contains. |
| BasicAuth.ExtractRoundTrip | 0x01-Basic_authentication/api/v1/auth/basic_auth.py:35-38 | Every header `Basic v` yields exactly `v`. |
| BasicAuth.SchemeIsCaseSensitive | 0x01-Basic_authentication/api/v1/auth/basic_auth.py:36 | `basic v` and `BASIC v` yield None. |
| BasicAuth.ExtractBase64Intended | 0x01-Basic_authentication/api/v1/auth/basic_auth.py:32-38 | The corrected extraction returns None for `Basic`. On every other header it agrees with the code. |
| BasicAuth.IntendedRoundTrip | 0x01-Basic_authentication/api/v1/auth/basic_auth.py:35-38 | The corrected extraction keeps the round trip `Basic v` to `v`. |
| SessionGate.NewAuth | 0x02-Session_authentication/api/v1/auth/auth.py:16-24 | The session name is `SESSION_NAME` from the environment, or `_my_session_id` when it is unset. |
| SessionGate.WildcardScan | 0x02-Session_authentication/api/v1/auth/auth.py:42-46 | The wildcard loop returns true exactly when it reaches a `*` entry whose stem occurs in the normalised path, with no empty entry before it. It raises IndexError exactly when it reaches an empty entry, with no covering wildcard before it. |
| SessionGate.RequireAuth | 0x02-Session_authentication/api/v1/auth/auth.py:26-49 | True when the path or list is missing, or the list is empty. Otherwise: IndexError exactly when the wildcard loop reaches an empty entry. False exactly when the loop reaches a covering wildcard, or when no error occurs and the normalised path is an entry. |
| SessionGate.NonEmptyEntriesNeverRaise | 0x02-Session_authentication/api/v1/auth/auth.py:39-49 | With no empty entry, the gate never raises, for any list including the empty one. It answers false exactly when some wildcard stem occurs in the normalised path or that path is an entry. |
| SessionGate.EmptyEntryReachedOrNot | 0x02-Session_authentication/api/v1/auth/auth.py:42-46 | `["*", ""]` exempts `/x`, because the wildcard matches before the empty entry is reached. `["", "*"]` raises IndexError. |
| SessionGate.LoneStarExcludesEverything | 0x02-Session_authentication/api/v1/auth/auth.py:42-46 | When no entry is empty, the entry `*` exempts every path. |
| SessionGate.WildcardMatchesAnywhere | 0x02-Session_authentication/api/v1/auth/auth.py:42-46 | When no entry is empty, `stem*` exempts every path that contains `stem` anywhere, not only as a prefix. |
| SessionGate.UnslashedEntryIsInert | 0x02-Session_authentication/api/v1/auth/auth.py:41-48 | Adding an entry that ends in neither `/` nor `*` changes no answer. |
| SessionGate.TrailingSlashIrrelevant | 0x02-Session_authentication/api/v1/auth/auth.py:41 | For a path `p` not ending in `/`, `p` and `p/` get the same result, errors included. |
| SessionGate.WildcardExample | 0x02-Session_authentication/api/v1/auth/auth.py:42-46 | `/api/v1/admin/*` exempts `/api/v1/admin/users`. |
| SessionGate.AuthorizationHeader | 0x02-Session_authentication/api/v1/auth/auth.py:51-63 | Returns a value exactly when there is a request that has an `Authorization` header, and the value is that header's. |
| SessionGate.SessionCookie | 0x02-Session_authentication/api/v1/auth/auth.py:78-94 | Returns a value exactly when there is a request that has the configured cookie, and the value is that cookie's. |
| SessionGate.CurrentUser | 0x02-Session_authentication/api/v1/auth/auth.py:65-76 | Always returns None. |
| FilteredLogger.FirstContaining | 0x00-personal_data/filtered_logger.py:38-39 | The first segment that contains the field, or None when no segment does. |
| FilteredLogger.DelimitedValue | 0x00-personal_data/filtered_logger.py:40-41 | `segment.split(delimiter)[1]` contains no delimiter, and every character of it comes from the segment. |
| FilteredLogger.ValueFor | 0x00-personal_data/filtered_logger.py:36-43 | Each field contributes at most one value. |
| FilteredLogger.CollectedExtend | 0x00-personal_data/filtered_logger.py:35-43 | Each pass of the outer loop appends that field's value, if it has one, to the list. |
| FilteredLogger.ValueForFound | 0x00-personal_data/filtered_logger.py:38-43 | At the first segment containing the field, extraction succeeds exactly when the segment is longer than the field name. The value is then that segment's `split(delimiter)[1]`. |
| FilteredLogger.FilterDatum | 0x00-personal_data/filtered_logger.py:11-47 | Raises exactly when some occurring field cannot be extracted. The error is ValueError exactly when the separator is empty, and IndexError otherwise (a segment too short to index). Otherwise returns the message with each collected value replaced, in order, as `re.sub` does. |
| FilteredLogger.ScanSegments | 0x00-personal_data/filtered_logger.py:37-43 | The inner loop for a field that occurs. It succeeds exactly when the first segment holding the field is longer than the field name, and then yields that field's value. Otherwise it raises IndexError. |
| FilteredLogger.RedactEach | 0x00-personal_data/filtered_logger.py:44-46 | The second loop produces exactly `RedactAll` of the message over the collected values. |
| FilteredLogger.DelimitedValueBetween | 0x00-personal_data/filtered_logger.py:40-41 | The collected value is the text after the first delimiter up to the next one or the end. It contains no delimiter. |
| FilteredLogger.Collected | 0x00-personal_data/filtered_logger.py:34-43 | The list `str_to_be_replaced` after the first loop holds at most one value per field. |
| FilteredLogger.AbsentFieldsLeaveMessage | 0x00-personal_data/filtered_logger.py:34-47 | When no field name occurs, nothing is collected and the message is returned unchanged. |
| FilteredLogger.ReplaceAll | 0x00-personal_data/filtered_logger.py:46 | `re.sub` with a literal pattern. The empty pattern inserts the redaction before every character and at the end, so the length grows by `(len(s) + 1) * len(red)`. A non-empty pattern that does not occur leaves the string unchanged. |
| FilteredLogger.RedactAll | 0x00-personal_data/filtered_logger.py:44-46 | The replacement loop leaves the message unchanged when no value is empty and none occurs in the message. |
| FilteredLogger.ReplaceAbsent | 0x00-personal_data/filtered_logger.py:46 | `re.sub` with a pattern that does not occur leaves the string unchanged. |
| FilteredLogger.ReplaceFirstOccurrence | 0x00-personal_data/filtered_logger.py:46 | `re.sub` replaces the leftmost occurrence and continues scanning after it. |
| FilteredLogger.ReplaceEmptyKeepsOtherChars | 0x00-personal_data/filtered_logger.py:46 | An empty pattern only inserts the redaction, so a character not in the redaction keeps its count. |
| FilteredLogger.ReplaceOccurrencesKeepsOtherChars | 0x00-personal_data/filtered_logger.py:46 | A character that is in neither the non-empty pattern nor the redaction keeps its count. |
| FilteredLogger.ReplaceKeepsOtherChars | 0x00-personal_data/filtered_logger.py:46 | The same count property for any pattern. |
| FilteredLogger.CollectedAvoidsSeparator | 0x00-personal_data/filtered_logger.py:37-41 | With a one-character separator, no collected value contains the separator. |
| FilteredLogger.RedactKeepsChar | 0x00-personal_data/filtered_logger.py:44-46 | The replacement loop keeps the count of a character that is in neither the values nor the redaction. |
| FilteredLogger.FilterKeepsSeparators | 0x00-personal_data/filtered_logger.py:34-47 | For a one-character separator that the redaction does not contain, the output has exactly as many separators as the message. |
| Users.ColumnNamed | 0x03-user_authentication_service/user.py:28-32 | A keyword maps to the column of that name, or to None when no column has that name. |
| Users.ColumnNameRoundTrip | 0x03-user_authentication_service/user.py:28-32 | Column names are distinct. |
| Users.NullOnlyInNullableColumns | 0x03-user_authentication_service/user.py:28-32 | Only `session_id` and `reset_token` can hold NULL. |
| Db.FirstSatisfying | 0x03-user_authentication_service/db.py:71 | The first row that satisfies every filter, with no earlier row satisfying them. |
| Db.FindUserBy | 0x03-user_authentication_service/db.py:56-77 | InvalidRequestError exactly when some keyword is not a column. NoResultFound exactly when no row matches. Otherwise the first matching row. |
| Db.SingleFilter | 0x03-user_authentication_service/db.py:71 | `filter_by(c=v)` holds exactly when column `c` equals `v`, which is IS NULL for None. |
| Db.FindByColumn | 0x03-user_authentication_service/db.py:70-77 | A one-column lookup returns the first row with that value, and fails exactly when no row has it. |
| Db.IdsUnique | 0x03-user_authentication_service/user.py:28 | Primary keys are unique. |
| Db.FindById | 0x03-user_authentication_service/db.py:95 | `find_user_by(id=n)` finds row `n - 1`, or raises NoResultFound when `n` is out of range. |
| Db.DB.constructor | 0x03-user_authentication_service/db.py:19-26 | The table starts empty. |
| Db.DB.AddUser | 0x03-user_authentication_service/db.py:37-54 | Appends one row with the next key, the given email and hash, and NULL session id and reset token. Returns that row. |
| Db.DB.Commit | 0x03-user_authentication_service/auth.py:99-100 | A committed user object replaces the row with its key. Other rows are unchanged. |
| Db.DB.UpdateUser | 0x03-user_authentication_service/db.py:79-102 | NoResultFound exactly when no row has the id. ValueError exactly when the row exists and some keyword is not a column. Otherwise success. No row changes. |
| Db.SetColumn | 0x03-user_authentication_service/db.py:98 | An assignment gives one column the new value and leaves the other columns alone. |
| Db.LastAssignment | 0x03-user_authentication_service/db.py:96-98 | The value assigned by the last keyword naming a column, or None when no keyword names it. |
| Db.ApplyUpdatesFrom | 0x03-user_authentication_service/db.py:96-101 | The intended loop changes only the target row. It fails with ValueError exactly when some keyword is not a column. On success each column of the row holds the value of the last keyword naming it, or its old value when no keyword does. |
| Db.UpdateUserIntended | 0x03-user_authentication_service/db.py:79-102 | The intended `update_user` raises NoResultFound exactly for an unknown id. It raises ValueError exactly when the row exists and some keyword is not a column, and succeeds otherwise. On NoResultFound the table is unchanged. Otherwise only the first row with the id changes, and on success its columns take the assigned values. |
| UserAuth.HashPassword | 0x03-user_authentication_service/auth.py:16-27 | A hash starts with the 29-character salt it was made with. |
| UserAuth.CheckPassword | 0x03-user_authentication_service/auth.py:79 | `bcrypt.checkpw(p, h)` holds exactly when `h` is what `hashpw` makes of `p` with the salt at the head of `h`. |
| UserAuth.CheckAcceptsOwnHash | 0x03-user_authentication_service/auth.py:79 | `checkpw(p, hashpw(p, salt))` holds for every password and salt. |
| UserAuth.CheckRejectsOtherPasswords | 0x03-user_authentication_service/auth.py:79 | Under an injective key derivation, no other password passes `checkpw`. |
| UserAuth.SaltsGiveDistinctHashes | 0x03-user_authentication_service/auth.py:26 | Two salts give two different hashes, and both check. |
| UserAuth.FindByEmail | 0x03-user_authentication_service/auth.py:58 | `find_user_by(email=e)` returns the first user with that email, or NoResultFound when there is none. |
| UserAuth.FindByToken | 0x03-user_authentication_service/auth.py:171 | A lookup by session id or reset token returns the first holder, or NoResultFound. A None token matches IS NULL. |
| UserAuth.ValidLogin | 0x03-user_authentication_service/auth.py:64-83 | False for an unknown email. Otherwise true exactly when the password checks against the hash of the first user with that email. |
| UserAuth.GetUserFromSessionId | 0x03-user_authentication_service/auth.py:105-122 | None for a None id. Otherwise the first user holding the id, or None when no user holds it. |
| UserAuth.RegisterStep | 0x03-user_authentication_service/auth.py:43-62 | ValueError, with the table unchanged, exactly when the email is taken. Otherwise one new user with the next key, the hash and no session. |
| UserAuth.CreateSessionStep | 0x03-user_authentication_service/auth.py:85-103 | None with the table unchanged exactly for an unknown email. Otherwise the first user with that email gets the token as its session id, no other row changes, and the token is returned. |
| UserAuth.ResetTokenStep | 0x03-user_authentication_service/auth.py:136-156 | ValueError with the table unchanged exactly for an unknown email. Otherwise the first user with that email gets the token as its reset token, no other row changes, and the token is returned. |
| UserAuth.UpdatePasswordStep | 0x03-user_authentication_service/auth.py:158-176 | ValueError with the table unchanged exactly when no user's reset token equals the argument. Otherwise the first such user gets the new hash and a cleared reset token, and no other row changes. |
| UserAuth.RegisterThenLogin | 0x03-user_authentication_service/auth.py:43-83 | After registering, the registered password logs in. |
| UserAuth.RegisterTwiceFails | 0x03-user_authentication_service/auth.py:57-59 | A second registration of the same email raises ValueError and changes nothing. |
| UserAuth.CreateSessionThenGet | 0x03-user_authentication_service/auth.py:85-122 | A fresh session id resolves to the user it was created for. |
| UserAuth.ResetThenLogin | 0x03-user_authentication_service/auth.py:136-176 | Issuing and then redeeming a fresh reset token succeeds, and afterwards the new password logs in. Under an injective key derivation, no other password does. |
| UserAuth.RedeemTwiceFails | 0x03-user_authentication_service/auth.py:170-176 | A reset token held by at most one user cannot be redeemed twice. |
| UserAuth.UpdatePasswordWithoutToken | 0x03-user_authentication_service/auth.py:170-174 | As written, a None token resets the password of the first user that has no reset token, and reports success. |
| UserAuth.UpdatePasswordGuardedStep | 0x03-user_authentication_service/auth.py:158-176 | Corrected version: a None token is refused. Success requires an outstanding token, and users without one are never changed. On success the first holder of the token gets the new hash and a cleared reset token, and no other row changes. Every failure is ValueError and leaves the table unchanged, including a token that no user holds. |
| UserAuth.DestroySessionIntended | 0x03-user_authentication_service/auth.py:124-134 | The intended `destroy_session` keeps the table size. It raises NoResultFound exactly for an unknown id, and then leaves the table unchanged. |
| UserAuth.IntendedDestroyEndsSession | 0x03-user_authentication_service/auth.py:124-134 | With the intended update, the holder's session id is cleared and no longer resolves. |
| UserAuth.Auth.constructor | 0x03-user_authentication_service/auth.py:40-41 | A new service owns a fresh, empty DB. |
| UserAuth.Auth.RegisterUser | 0x03-user_authentication_service/auth.py:43-62 | The new table and the result are those of `RegisterStep` on the old table. |
| UserAuth.Auth.CreateSession | 0x03-user_authentication_service/auth.py:85-103 | The new table and the result are those of `CreateSessionStep` on the old table. |
| UserAuth.Auth.GetResetPasswordToken | 0x03-user_authentication_service/auth.py:136-156 | The new table and the result are those of `ResetTokenStep` on the old table. |
| UserAuth.Auth.UpdatePassword | 0x03-user_authentication_service/auth.py:158-176 | The new table and the result are those of `UpdatePasswordStep` on the old table. |
| UserAuth.Auth.DestroySession | 0x03-user_authentication_service/auth.py:124-134 | NoResultFound exactly for an unknown id, success exactly for a known one. Nothing changes. |
| UserAuth.DestroyedSessionStillResolves | 0x03-user_authentication_service/app.py:53-71 | Logging out reports success, yet the same session id still resolves to a user holding it. |

## Left out

- Flask, the environment, `uuid4`, `bcrypt.gensalt` and the SQLite engine are not modelled.
  - The request is a pair of header and cookie maps, and the environment is a map.
  - Tokens and salts are parameters.
  - The database is a sequence of rows.
- bcrypt internals are left out. The key-derivation function is a parameter, so its 72-byte password truncation and its cost factor are not modelled. Rejecting wrong passwords is proved only for an injective derivation.
- The `isinstance(header, str)` test is left out. A header is either None or a string here, so a non-string header cannot be written.
- Header names are looked up exactly. Flask's header lookup is case-insensitive.
- BasicGate.RequireAuth: requires a non-empty path, because the source indexes `path[len(path) - 1]` and raises IndexError on an empty path.
- SessionGate.RequireAuth: requires a non-empty path, because the source indexes `path[len(path) - 1]` and raises IndexError on an empty path. An empty exclusion entry is modelled: it raises IndexError only when the wildcard loop reaches it.
- FilteredLogger.FilterDatum: requires each collected value to be free of regular-expression metacharacters, and the redaction to be free of backslashes. Regular-expression matching and replacement-template escapes are not modelled.
- Db.DB.UpdateUser: counts only the five mapped columns as attributes. `hasattr` also accepts other attributes of the class, such as `metadata`, and the model reports ValueError for those keywords.
- Db.ApplyUpdatesFrom: on ValueError the contract says that only the target row changes, but not which of the earlier assignments were committed before the unknown keyword.
- Db.UpdateUserIntended: on ValueError it likewise states only the frame and the error, not which earlier assignments were committed, because it rests on `ApplyUpdatesFrom`.
- Db.UpdateUserIntended: accepts only values of each column's type (`WellTypedUpdates`). With `setattr`, SQLAlchemy and SQLite would also take a value of another type, for example a number for `email`, and the model does not say what they store then.
- Db.FindUserBy: compares values by kind and content. SQLite's type affinity, which can make `'5'` equal `5`, is not modelled.
- Object identity is not modelled.
  - The ORM hands out one shared `User` object per row. The model copies the row, changes it and writes it back with `DB.Commit`.
  - `get_reset_password_token` and `update_password` never call `commit()`. Their changes become visible through the session's autoflush, which the model treats as an immediate write-back.
- Primary keys are positions + 1. Nothing in the core deletes rows, so SQLite's keys are consecutive.
- `_generate_uuid` is not modelled. It only stringifies `uuid4()`, which is a parameter here.
- The InvalidRequestError branch of `valid_login` is not modelled. It cannot fire, because the only keyword passed is `email`.
- The Flask routes in the service's `app.py` are not modelled. Only the logout route's sequence of calls appears, as `DestroyedSessionStillResolves`.
- `0x02-Session_authentication/api/v1/auth/session_auth.py` is not part of this model.

## Findings

| source | as written | input that shows it | evidently intended | confidence | as-written member | corrected member |
|---|---|---|---|---|---|---|
| 0x03-user_authentication_service/db.py:96-99 | `user.key = value` sets an attribute literally named `key`, so `update_user` changes no column | Call `destroy_session(u.id)` for a user holding session id `s`. Afterwards `get_user_from_session_id(s)` still returns that user, so logout leaves the session alive. | `setattr(user, key, value)` | high; not executed | Db.DB.UpdateUser, UserAuth.DestroyedSessionStillResolves | Db.UpdateUserIntended, UserAuth.IntendedDestroyEndsSession |
| 0x03-user_authentication_service/auth.py:170-174 | `find_user_by(reset_token=None)` matches `reset_token IS NULL` | Call `update_password(None, "x")` on a table whose first user never asked for a reset. That user's password becomes `x` and the call succeeds. PUT /reset_password without a `reset_token` field reaches this (app.py:126-131). | refuse a missing token | high; not executed | UserAuth.UpdatePasswordWithoutToken | UserAuth.UpdatePasswordGuardedStep |
| 0x01-Basic_authentication/api/v1/auth/basic_auth.py:35-38 | `str_a[1]` when `split(' ', 1)` gives a single piece | The header `Basic` raises IndexError. | return None | high; not executed | BasicAuth.ExtractBase64AuthorizationHeader | BasicAuth.ExtractBase64Intended |

=== FILE: BasicAuth.dfy ===
/**
 * The scheme-token step of HTTP Basic authentication
 * (0x01-Basic_authentication, api/v1/auth/basic_auth.py): a header of the
 * form `Basic <credentials>` (section 2 of RFC 7617) yields `<credentials>`.
 */
module BasicAuth {
  import opened Wrappers
  import opened Strings

  /** The Python exception the code can raise. */
  datatype Exception = IndexError

  /** The text before the first space, or the whole header when it has none. */
  function SchemeToken(header: string): string
  {
    SplitOnce(header, " ")[0]
  }

  /**
   * `BasicAuth.extract_base64_authorization_header`, as written: the header
   * is split once at the first space; a first part other than exactly
   * `Basic` gives None, and a header that is exactly `Basic` has no second
   * part, so indexing it raises IndexError.
   */
  function ExtractBase64AuthorizationHeader(header: Option<string>): (r: Result<Option<string>, Exception>)
    ensures header.None? ==> r == Ok(None)
    ensures r == Err(IndexError) <==> header == Some("Basic")
    ensures r == Ok(None) <==> header.None? || SchemeToken(header.value) != "Basic"
    ensures r.Ok? && r.value.Some? ==> header == Some("Basic " + r.value.value)
  {
    match header
    case None => Ok(None)
    case Some(h) =>
      var parts := SplitOnce(h, " ");
      BareSchemeHasNoSpace();
      if parts[0] != "Basic" then Ok(None)
      else if |parts| < 2 then Err(IndexError)
      else
        assert h == "Basic " + parts[1] by { assert "Basic" + " " == "Basic "; }
        Ok(Some(parts[1]))
  }

  lemma BareSchemeHasNoSpace()
    ensures !Contains("Basic", " ")
  {
    forall j | 0 <= j < 5 ensures !OccursAt(" ", "Basic", j) {
      assert "Basic"[j..j + 1] == ["Basic"[j]];
    }
  }

  /** For a scheme word without spaces, the first space is the one right after it. */
  lemma {:induction false} SchemeOfWord(word: string, v: string)
    requires ' ' !in word
    ensures SplitOnce(word + " " + v, " ") == [word, v]
  {
    var h := word + " " + v;
    assert OccursAt(" ", h, |word|);
    forall j | 0 <= j < |word| ensures !OccursAt(" ", h, j) {
      assert h[j..j + 1] == [word[j]];
    }
    assert Find(h, " ") == Some(|word|);
    assert h[..|word|] == word && h[|word| + 1..] == v;
  }

  lemma SchemeOfBasic(v: string)
    ensures SplitOnce("Basic " + v, " ") == ["Basic", v]
  {
    assert "Basic" + " " + v == "Basic " + v;
    SchemeOfWord("Basic", v);
  }

  /** Every `Basic` header gives back exactly the credentials after the first space. */
  lemma ExtractRoundTrip(v: string)
    ensures ExtractBase64AuthorizationHeader(Some("Basic " + v)) == Ok(Some(v))
  {
    SchemeOfBasic(v);
  }

  /**
   * The scheme name is compared case-sensitively, although section 2.1 of
   * RFC 7235 makes scheme names case-insensitive.
   */
  lemma SchemeIsCaseSensitive(v: string)
    ensures ExtractBase64AuthorizationHeader(Some("basic " + v)) == Ok(None)
    ensures ExtractBase64AuthorizationHeader(Some("BASIC " + v)) == Ok(None)
  {
    assert "basic" + " " + v == "basic " + v;
    SchemeOfWord("basic", v);
    assert "BASIC" + " " + v == "BASIC " + v;
    SchemeOfWord("BASIC", v);
  }

  /**
   * The evidently intended extraction: a header without credentials gives
   * None instead of raising; every other header is treated as the code does.
   */
  function ExtractBase64Intended(header: Option<string>): (r: Option<string>)
    ensures header == Some("Basic") ==> r.None?
    ensures header != Some("Basic") ==> ExtractBase64AuthorizationHeader(header) == Ok(r)
    ensures r.Some? ==> header == Some("Basic " + r.value)
  {
    match ExtractBase64AuthorizationHeader(header)
    case Err(_) => None
    case Ok(v) => v
  }

  /** The intended extraction keeps the round trip and never fails. */
  lemma IntendedRoundTrip(v: string)
    ensures ExtractBase64Intended(Some("Basic " + v)) == Some(v)
  {
    ExtractRoundTrip(v);
  }
}

=== FILE: BasicGate.dfy ===
/**
 * The access gate of the Basic-authentication API (0x01-Basic_authentication,
 * api/v1/auth/auth.py): a request path needs authentication unless its
 * slash-terminated form is literally one of the excluded paths.
 */
module BasicGate {
  import opened Wrappers

  /** What the gate sees of a Flask request: its headers and its cookies. */
  datatype Request = Request(headers: map<string, string>, cookies: map<string, string>)

  predicate EndsWithSlash(p: string)
  {
    |p| > 0 && p[|p| - 1] == '/'
  }

  /** The path with a trailing `/` added unless it already has one. */
  function Normalise(path: string): (r: string)
    requires path != []
    ensures EndsWithSlash(r)
    ensures |path| <= |r| <= |path| + 1 && r[..|path|] == path
    ensures EndsWithSlash(path) <==> r == path
  {
    if path[|path| - 1] == '/' then path else path + "/"
  }

  /** The gate looks at the path only when both arguments are given and the list is non-empty. */
  predicate Examined(path: Option<string>, excluded: Option<seq<string>>)
  {
    path.Some? && excluded.Some? && excluded.value != []
  }

  /**
   * `Auth.require_auth`: true (authentication required) unless the
   * normalised path is a member of `excluded`. The path is indexed at its
   * last character, so it must be non-empty once it is examined.
   */
  function RequireAuth(path: Option<string>, excluded: Option<seq<string>>): (r: bool)
    requires Examined(path, excluded) ==> path.value != []
    ensures !Examined(path, excluded) ==> r
    ensures Examined(path, excluded) ==> (!r <==> Normalise(path.value) in excluded.value)
  {
    if path.None? || excluded.None? || excluded.value == [] then true
    else
      var p := Normalise(path.value);
      if p in excluded.value then false else true
  }

  /** Normalising twice is normalising once. */
  lemma NormaliseIdempotent(path: string)
    requires path != []
    ensures Normalise(Normalise(path)) == Normalise(path)
  {
  }

  /** `p` and `p + "/"` are gated alike when `p` has no trailing slash. */
  lemma TrailingSlashIrrelevant(path: string, excluded: Option<seq<string>>)
    requires path != [] && !EndsWithSlash(path)
    ensures RequireAuth(Some(path), excluded) == RequireAuth(Some(path + "/"), excluded)
  {
    assert EndsWithSlash(path + "/");
  }

  /** Adding exclusions can turn "required" into "not required", never the reverse. */
  lemma MoreExclusionsRelaxOnly(path: string, xs: seq<string>, ys: seq<string>)
    requires path != []
    requires forall e :: e in xs ==> e in ys
    ensures !RequireAuth(Some(path), Some(xs)) ==> !RequireAuth(Some(path), Some(ys))
  {
  }

  /** Examples of exact exclusions. */
  lemma ExactExclusionExamples()
    ensures !RequireAuth(Some("/api/v1/status/"), Some(["/api/v1/status/"]))
    ensures !RequireAuth(Some("/api/v1/status"), Some(["/api/v1/status/"]))
    ensures RequireAuth(Some("/api/v1/status"), Some(["/api/v1/status"]))
    ensures RequireAuth(Some("/api/v1/x"), Some([]))
    ensures RequireAuth(None, Some(["/api/v1/status/"]))
  {
    assert Normalise("/api/v1/status") == "/api/v1/status/";
  }

  /** `Auth.authorization_header`: the base class never reads a header. */
  function AuthorizationHeader(request: Option<Request>): (h: Option<string>)
    ensures h.None?
  {
    None
  }

  /** `Auth.current_user`: the base class resolves nobody. */
  function CurrentUser<U>(request: Option<Request>): (u: Option<U>)
    ensures u.None?
  {
    None
  }
}

=== FILE: Db.dfy ===
/**
 * The storage layer of the user-authentication service
 * (0x03-user_authentication_service/db.py), with the SQLite table replaced
 * by an in-memory sequence of rows kept in insertion order.
 */
module Db {
  import opened Wrappers
  import opened Users

  /** The exceptions the storage layer and its callers raise. */
  datatype Exception = NoResultFound | InvalidRequestError | ValueError

  /** One keyword argument `name=value` of `find_user_by` or `update_user`. */
  type Filter = (string, Value)

  /** The table after an operation, and what the operation returned. */
  datatype Step<T> = Step(users: seq<User>, result: T)

  predicate KnownKeys(filters: seq<Filter>)
  {
    forall k :: 0 <= k < |filters| ==> ColumnNamed(filters[k].0).Some?
  }

  /** `filter_by` compares with `=`, or with IS NULL for None: plain equality of values. */
  predicate Holds(u: User, f: Filter)
  {
    match ColumnNamed(f.0)
    case None => false
    case Some(c) => ValueOf(u, c) == f.1
  }

  predicate Satisfies(u: User, filters: seq<Filter>)
  {
    forall k :: 0 <= k < |filters| ==> Holds(u, filters[k])
  }

  /** The first row at or after `from` that satisfies every filter. */
  function FirstSatisfying(users: seq<User>, filters: seq<Filter>, from: nat): (r: Option<nat>)
    requires from <= |users|
    ensures r.Some? ==> from <= r.value < |users| && Satisfies(users[r.value], filters)
    ensures r.Some? ==> forall j :: from <= j < r.value ==> !Satisfies(users[j], filters)
    ensures r.None? ==> forall j :: from <= j < |users| ==> !Satisfies(users[j], filters)
    decreases |users| - from
  {
    if from == |users| then None
    else if Satisfies(users[from], filters) then Some(from)
    else FirstSatisfying(users, filters, from + 1)
  }

  /**
   * `DB.find_user_by`: the position of the first row satisfying all the
   * keyword filters. A keyword that is not a column raises
   * InvalidRequestError whatever the table holds; no matching row raises
   * NoResultFound.
   */
  function FindUserBy(users: seq<User>, filters: seq<Filter>): (r: Result<nat, Exception>)
    ensures r == Err(InvalidRequestError) <==> !KnownKeys(filters)
    ensures r == Err(NoResultFound) <==>
      KnownKeys(filters) && forall j :: 0 <= j < |users| ==> !Satisfies(users[j], filters)
    ensures r.Ok? ==> r.value < |users| && Satisfies(users[r.value], filters)
    ensures r.Ok? ==> forall j :: 0 <= j < r.value ==> !Satisfies(users[j], filters)
    ensures r != Err(ValueError)
  {
    if !KnownKeys(filters) then Err(InvalidRequestError)
    else match FirstSatisfying(users, filters, 0)
      case None => Err(NoResultFound)
      case Some(i) => Ok(i)
  }

  /** A single filter on column `c` holds exactly when the column has that value. */
  lemma SingleFilter(u: User, c: Column, v: Value)
    ensures KnownKeys([(ColumnName(c), v)])
    ensures Satisfies(u, [(ColumnName(c), v)]) <==> ValueOf(u, c) == v
  {
    ColumnNameRoundTrip(c);
    assert [(ColumnName(c), v)][0] == (ColumnName(c), v);
  }

  /**
   * The first row whose column `c` equals `v`: the lookup the callers make,
   * restated without filters.
   */
  lemma FindByColumn(users: seq<User>, c: Column, v: Value)
    ensures var r := FindUserBy(users, [(ColumnName(c), v)]);
      (r.Ok? || r == Err(NoResultFound))
      && (r == Err(NoResultFound) <==> forall j :: 0 <= j < |users| ==> ValueOf(users[j], c) != v)
      && (r.Ok? ==> ValueOf(users[r.value], c) == v && forall j :: 0 <= j < r.value ==> ValueOf(users[j], c) != v)
  {
    forall u: User ensures Satisfies(u, [(ColumnName(c), v)]) <==> ValueOf(u, c) == v {
      SingleFilter(u, c, v);
    }
  }

  /** With no deletions, SQLite gives row `i` the key `i + 1`. */
  predicate IdsArePositions(users: seq<User>)
  {
    forall i :: 0 <= i < |users| ==> users[i].id == i + 1
  }

  /** Primary keys are unique. */
  lemma IdsUnique(users: seq<User>)
    requires IdsArePositions(users)
    ensures forall i, j :: 0 <= i < j < |users| ==> users[i].id != users[j].id
  {
  }

  /** Looking a user up by id finds the row at position id - 1, or nothing. */
  lemma FindById(users: seq<User>, id: int)
    requires IdsArePositions(users)
    ensures 1 <= id <= |users| ==> FindUserBy(users, [("id", IntValue(id))]) == Ok(id - 1)
    ensures !(1 <= id <= |users|) ==> FindUserBy(users, [("id", IntValue(id))]) == Err(NoResultFound)
  {
    assert ColumnName(Id) == "id";
    FindByColumn(users, Id, IntValue(id));
    var r := FindUserBy(users, [("id", IntValue(id))]);
    if r.Ok? {
      assert ValueOf(users[r.value], Id) == IntValue(r.value + 1);
    }
    if 1 <= id <= |users| {
      assert ValueOf(users[id - 1], Id) == IntValue(id);
    }
  }

  /** The DB object: the rows of `users` and the next primary key SQLite will hand out. */
  class DB {
    var users: seq<User>
    var nextId: int

    ghost predicate Valid()
      reads this
    {
      nextId == |users| + 1 && IdsArePositions(users)
    }

    /** `DB.__init__` drops and recreates the table: it starts empty. */
    constructor ()
      ensures Valid() && users == []
    {
      users := [];
      nextId := 1;
    }

    /**
     * `DB.add_user`: appends one row with the next key, the given email and
     * hash, and NULL session id and reset token; returns that row.
     */
    method AddUser(email: string, hashedPassword: string) returns (user: User)
      requires Valid()
      modifies this
      ensures Valid()
      ensures user == User(old(nextId), email, hashedPassword, None, None)
      ensures users == old(users) + [user]
    {
      user := User(nextId, email, hashedPassword, None, None);
      users := users + [user];
      nextId := nextId + 1;
    }

    /**
     * The session's commit of a modified User object: the row with its
     * primary key takes the object's values.
     */
    method Commit(user: User)
      requires Valid() && 1 <= user.id < nextId
      modifies this
      ensures Valid()
      ensures users == old(users)[user.id - 1 := user]
    {
      users := users[user.id - 1 := user];
    }

    /**
     * `DB.update_user`, as written: NoResultFound when no row has the id,
     * ValueError at the first keyword that is not a column, and otherwise
     * success. The assignment `user.key = value` sets an attribute literally
     * named `key`, which is not a column, so no row ever changes: the
     * method modifies nothing.
     */
    method UpdateUser(userId: int, updates: seq<Filter>) returns (r: Result<(), Exception>)
      ensures r == Err(NoResultFound) <==> forall j :: 0 <= j < |users| ==> users[j].id != userId
      ensures r == Err(ValueError) <==> (exists j :: 0 <= j < |users| && users[j].id == userId) && !KnownKeys(updates)
      ensures r == Ok(()) <==> (exists j :: 0 <= j < |users| && users[j].id == userId) && KnownKeys(updates)
      ensures r != Err(InvalidRequestError)
    {
      FindByColumn(users, Id, IntValue(userId));
      var found := FindUserBy(users, [("id", IntValue(userId))]);
      if found.Err? {
        return Err(found.error);
      }
      assert users[found.value].id == userId;
      var k := 0;
      while k < |updates|
        invariant 0 <= k <= |updates|
        invariant forall m :: 0 <= m < k ==> ColumnNamed(updates[m].0).Some?
      {
        if ColumnNamed(updates[k].0).None? {
          return Err(ValueError);
        }
        // the assignment and its commit change no column
        k := k + 1;
      }
      return Ok(());
    }
  }

  /** Position `i` holds the first row with this primary key. */
  predicate FirstWithId(users: seq<User>, i: int, id: int)
  {
    0 <= i < |users| && users[i].id == id && forall j :: 0 <= j < i ==> users[j].id != id
  }

  /** Assigning a column of a user, for values of the column's type. */
  predicate WellTyped(c: Column, v: Value)
  {
    match c
    case Id => v.IntValue?
    case Email => v.StrValue?
    case HashedPassword => v.StrValue?
    case SessionId => v.StrValue? || v.Null?
    case ResetToken => v.StrValue? || v.Null?
  }

  function SetColumn(u: User, c: Column, v: Value): (u': User)
    requires WellTyped(c, v)
    ensures ValueOf(u', c) == v
    ensures forall other :: other != c ==> ValueOf(u', other) == ValueOf(u, other)
  {
    match c
    case Id => u.(id := v.i)
    case Email => u.(email := v.s)
    case HashedPassword => u.(hashedPassword := v.s)
    case SessionId => u.(sessionId := if v.Null? then None else Some(v.s))
    case ResetToken => u.(resetToken := if v.Null? then None else Some(v.s))
  }

  predicate WellTypedUpdates(updates: seq<Filter>)
  {
    forall k :: 0 <= k < |updates| && ColumnNamed(updates[k].0).Some? ==>
      WellTyped(ColumnNamed(updates[k].0).value, updates[k].1)
  }

  /** The value the last of `updates[k..]` that names column `c` assigns, if any does. */
  function LastAssignment(updates: seq<Filter>, k: nat, c: Column): (v: Option<Value>)
    requires k <= |updates|
    ensures v.None? ==> forall m :: k <= m < |updates| ==> ColumnNamed(updates[m].0) != Some(c)
    ensures v.Some? ==> exists m :: k <= m < |updates| && ColumnNamed(updates[m].0) == Some(c) && updates[m].1 == v.value
                                    && forall n :: m < n < |updates| ==> ColumnNamed(updates[n].0) != Some(c)
    decreases |updates| - k
  {
    if k == |updates| then None
    else match LastAssignment(updates, k + 1, c)
      case Some(v) => Some(v)
      case None => if ColumnNamed(updates[k].0) == Some(c) then Some(updates[k].1) else None
  }

  /** What column `c` of `u` holds once `updates[k..]` have been assigned. */
  function Updated(u: User, updates: seq<Filter>, k: nat, c: Column): Value
    requires k <= |updates|
  {
    match LastAssignment(updates, k, c)
    case Some(v) => v
    case None => ValueOf(u, c)
  }

  /** Assignments `updates[k..]` applied to row `i`, committed one at a time. */
  function ApplyUpdatesFrom(users: seq<User>, i: nat, updates: seq<Filter>, k: nat): (st: Step<Result<(), Exception>>)
    requires i < |users| && k <= |updates| && WellTypedUpdates(updates)
    ensures |st.users| == |users|
    ensures forall j :: 0 <= j < |users| && j != i ==> st.users[j] == users[j]
    ensures st.result.Ok? <==> forall m :: k <= m < |updates| ==> ColumnNamed(updates[m].0).Some?
    ensures st.result.Err? ==> st.result == Err(ValueError)
    ensures st.result.Ok? ==> st.result == Ok(()) && forall c :: ValueOf(st.users[i], c) == Updated(users[i], updates, k, c)
    decreases |updates| - k
  {
    if k == |updates| then Step(users, Ok(()))
    else match ColumnNamed(updates[k].0)
      case None => Step(users, Err(ValueError))
      case Some(c) => ApplyUpdatesFrom(users[i := SetColumn(users[i], c, updates[k].1)], i, updates, k + 1)
  }

  /**
   * `update_user` as evidently intended, `setattr(user, key, value)`: each
   * column named is assigned and committed in turn; an unknown keyword
   * raises ValueError after the earlier assignments were committed.
   */
  function UpdateUserIntended(users: seq<User>, userId: int, updates: seq<Filter>): (st: Step<Result<(), Exception>>)
    requires WellTypedUpdates(updates)
    ensures |st.users| == |users|
    ensures st.result == Err(NoResultFound) <==> forall j :: 0 <= j < |users| ==> users[j].id != userId
    ensures st.result == Err(ValueError) <==> (exists j :: 0 <= j < |users| && users[j].id == userId) && !KnownKeys(updates)
    ensures st.result == Ok(()) <==> (exists j :: 0 <= j < |users| && users[j].id == userId) && KnownKeys(updates)
    ensures st.result == Err(NoResultFound) ==> st.users == users
    ensures forall i :: FirstWithId(users, i, userId) ==>
      (forall j :: 0 <= j < |users| && j != i ==> st.users[j] == users[j])
      && (st.result.Ok? ==> forall c :: ValueOf(st.users[i], c) == Updated(users[i], updates, 0, c))
  {
    assert ColumnName(Id) == "id";
    FindByColumn(users, Id, IntValue(userId));
    match FindUserBy(users, [("id", IntValue(userId))])
    case Err(e) => Step(users, Err(e))
    case Ok(i) =>
      var st := ApplyUpdatesFrom(users, i, updates, 0);
      assert st.result.Ok? <==> KnownKeys(updates);
      st
  }
}

=== FILE: FilteredLogger.dfy ===
/**
 * PII redaction for log lines (0x00-personal_data/filtered_logger.py):
 * `filter_datum` picks, for each field name, the value written after it in
 * the message and replaces every occurrence of those values by a redaction
 * string.
 */
module FilteredLogger {
  import opened Wrappers
  import opened Strings

  /** The Python exceptions `filter_datum` can raise. */
  datatype Exception = IndexError | ValueError

  /** The characters that `re.sub` would read as pattern syntax rather than literally. */
  const RegexSpecials: set<char> := {'.', '^', '$', '*', '+', '?', '{', '}', '[', ']', '\\', '|', '(', ')'}

  /** A value that means the same as a regular expression and as plain text. */
  predicate IsLiteral(v: string)
  {
    forall c :: c in v ==> c !in RegexSpecials
  }

  /** The first segment at or after `from` that contains `field`. */
  function FirstContaining(field: string, segments: seq<string>, from: nat): (r: Option<nat>)
    requires from <= |segments|
    ensures r.Some? ==> from <= r.value < |segments| && Contains(segments[r.value], field)
    ensures r.Some? ==> forall j :: from <= j < r.value ==> !Contains(segments[j], field)
    ensures r.None? ==> forall j :: from <= j < |segments| ==> !Contains(segments[j], field)
    decreases |segments| - from
  {
    if from == |segments| then None
    else if Contains(segments[from], field) then Some(from)
    else FirstContaining(field, segments, from + 1)
  }

  /**
   * The source indexes the first segment holding `field` at position
   * `|field|`: that segment must be longer than the field name, and the
   * split needs a non-empty separator. Both are looked at only when the
   * field occurs in the message.
   */
  predicate Extractable(field: string, message: string, separator: string)
  {
    !Contains(message, field) ||
    (separator != [] &&
     var segments := Split(message, separator);
     match FirstContaining(field, segments, 0)
     case None => true
     case Some(j) => |segments[j]| > |field|)
  }

  /** `segment.split(d)[1]`: the text after the first `d`, up to the next `d`. */
  function DelimitedValue(segment: string, d: char): (v: string)
    requires d in segment
    ensures d !in v
    ensures forall x :: x in v ==> x in segment
  {
    SplitAtOccurringChar(segment, d);
    SplitFromPiecesAvoidSep(segment, d, 0);
    SplitFromPiecesFromString(segment, [d], 0);
    Split(segment, [d])[1]
  }

  /** The value collected for one field: none, or the one taken from the first segment holding it. */
  function ValueFor(field: string, message: string, separator: string): (vs: seq<string>)
    requires Extractable(field, message, separator)
    ensures |vs| <= 1
  {
    if !Contains(message, field) then []
    else
      var segments := Split(message, separator);
      match FirstContaining(field, segments, 0)
      case None => []
      case Some(j) =>
        var segment := segments[j];
        [DelimitedValue(segment, segment[|field|])]
  }

  predicate AllExtractable(fields: seq<string>, message: string, separator: string)
  {
    forall k :: 0 <= k < |fields| ==> Extractable(fields[k], message, separator)
  }

  /** The list `str_to_be_replaced` after the loop over `fields`. */
  function Collected(fields: seq<string>, message: string, separator: string): (vs: seq<string>)
    requires AllExtractable(fields, message, separator)
    ensures |vs| <= |fields|
  {
    if fields == [] then []
    else Collected(fields[..|fields| - 1], message, separator) + ValueFor(fields[|fields| - 1], message, separator)
  }

  /**
   * `re.sub(v, red, s)` for a literal pattern: occurrences of `v` are
   * replaced left to right, without overlapping; the empty pattern matches
   * before every character and at the end.
   */
  function ReplaceAll(s: string, v: string, red: string): (r: string)
    ensures v == [] ==> |r| == |s| + (|s| + 1) * |red|
    ensures v != [] && !Contains(s, v) ==> r == s
  {
    if v == [] then InterleaveRedaction(s, red)
    else
      assert !Contains(s, v) ==> ReplaceOccurrences(s, v, red) == s by {
        if !Contains(s, v) {
          ReplaceAbsent(s, v, red);
        }
      }
      ReplaceOccurrences(s, v, red)
  }

  /** The empty pattern: the redaction before every character and at the end. */
  function InterleaveRedaction(s: string, red: string): (r: string)
    ensures |r| == |s| + (|s| + 1) * |red|
  {
    if s == [] then red else red + [s[0]] + InterleaveRedaction(s[1..], red)
  }

  /** A non-empty pattern: scan left to right, replacing each match and skipping past it. */
  function ReplaceOccurrences(s: string, v: string, red: string): string
    requires v != []
    decreases |s|
  {
    if |s| < |v| then s
    else if s[..|v|] == v then red + ReplaceOccurrences(s[|v|..], v, red)
    else [s[0]] + ReplaceOccurrences(s[1..], v, red)
  }

  /** The message after replacing each value in turn, first value first. */
  function RedactAll(message: string, values: seq<string>, red: string): (r: string)
    ensures (forall k :: 0 <= k < |values| ==> values[k] != [] && !Contains(message, values[k])) ==> r == message
  {
    if values == [] then message
    else ReplaceAll(RedactAll(message, values[..|values| - 1], red), values[|values| - 1], red)
  }

  /** One more field: the list grows by that field's value, if any. */
  lemma CollectedExtend(fields: seq<string>, k: nat, message: string, separator: string)
    requires k < |fields| && AllExtractable(fields[..k], message, separator)
    requires Extractable(fields[k], message, separator)
    ensures AllExtractable(fields[..k + 1], message, separator)
    ensures Collected(fields[..k + 1], message, separator)
      == Collected(fields[..k], message, separator) + ValueFor(fields[k], message, separator)
  {
    assert fields[..k + 1][..k] == fields[..k];
  }

  /** The value of a field found in segment `j`, the first segment holding it. */
  lemma ValueForFound(field: string, message: string, separator: string, j: nat)
    requires separator != [] && Contains(message, field)
    requires j < |Split(message, separator)| && Contains(Split(message, separator)[j], field)
    requires forall jj :: 0 <= jj < j ==> !Contains(Split(message, separator)[jj], field)
    ensures Extractable(field, message, separator) <==> |Split(message, separator)[j]| > |field|
    ensures |Split(message, separator)[j]| > |field| ==>
      var segment := Split(message, separator)[j];
      ValueFor(field, message, separator) == [DelimitedValue(segment, segment[|field|])]
  {
    assert FirstContaining(field, Split(message, separator), 0) == Some(j);
  }

  /**
   * `filter_datum`, as the nested loops of the source: collect at most one
   * value per field, then replace every occurrence of each collected value.
   * Splitting on an empty separator raises ValueError, and a first segment
   * holding the field but no longer than it raises IndexError.
   */
  method FilterDatum(fields: seq<string>, redaction: string, message: string, separator: string)
    returns (r: Result<string, Exception>)
    requires AllExtractable(fields, message, separator) ==>
      forall k :: 0 <= k < |Collected(fields, message, separator)| ==> IsLiteral(Collected(fields, message, separator)[k])
    requires '\\' !in redaction
    ensures r.Err? <==> !AllExtractable(fields, message, separator)
    ensures r.Err? ==> (r.error == ValueError <==> separator == [])
    ensures r.Ok? ==> r.value == RedactAll(message, Collected(fields, message, separator), redaction)
  {
    var toReplace: seq<string> := [];
    for k := 0 to |fields|
      invariant AllExtractable(fields[..k], message, separator)
      invariant toReplace == Collected(fields[..k], message, separator)
    {
      var item := fields[k];
      if Contains(message, item) {
        if separator == [] {
          return Err(ValueError);
        }
        var found := ScanSegments(item, message, separator);
        if found.Err? {
          return Err(found.error);
        }
        toReplace := toReplace + found.value;
      }
      CollectedExtend(fields, k, message, separator);
    }
    assert fields[..|fields|] == fields;
    var obfuscated := RedactEach(message, toReplace, redaction);
    return Ok(obfuscated);
  }

  /**
   * The inner loop of `filter_datum` for one field that occurs in the
   * message: the value from the first segment holding the field, or
   * IndexError when that segment is no longer than the field name.
   */
  method ScanSegments(item: string, message: string, separator: string) returns (r: Result<seq<string>, Exception>)
    requires separator != [] && Contains(message, item)
    ensures r.Ok? <==> Extractable(item, message, separator)
    ensures r.Ok? ==> r.value == ValueFor(item, message, separator)
    ensures r.Err? ==> r.error == IndexError
  {
    var msgList := Split(message, separator);
    for j := 0 to |msgList|
      invariant forall jj :: 0 <= jj < j ==> !Contains(msgList[jj], item)
    {
      if Contains(msgList[j], item) {
        ValueForFound(item, message, separator, j);
        var segment := msgList[j];
        if |segment| <= |item| {
          return Err(IndexError);
        }
        var delimiter := segment[|item|];
        var val := DelimitedValue(segment, delimiter);
        return Ok([val]);
      }
    }
    assert FirstContaining(item, msgList, 0).None?;
    return Ok([]);
  }

  /** The second loop of `filter_datum`: `re.sub` each collected value in turn. */
  method RedactEach(message: string, values: seq<string>, redaction: string) returns (obfuscated: string)
    ensures obfuscated == RedactAll(message, values, redaction)
  {
    obfuscated := message;
    for m := 0 to |values|
      invariant obfuscated == RedactAll(message, values[..m], redaction)
    {
      assert values[..m + 1][..m] == values[..m];
      obfuscated := ReplaceAll(obfuscated, values[m], redaction);
    }
    assert values[..|values|] == values;
  }

  /**
   * The collected value of a segment is the text between the first and the
   * second occurrence of the delimiter, or from the first to the end.
   */
  lemma DelimitedValueBetween(segment: string, d: char, i: nat)
    requires i < |segment| && segment[i] == d
    requires forall j :: 0 <= j < i ==> segment[j] != d
    ensures var v := DelimitedValue(segment, d);
      i + 1 + |v| <= |segment| && segment[i + 1..i + 1 + |v|] == v && d !in v
      && (i + 1 + |v| == |segment| || segment[i + 1 + |v|] == d)
  {
    assert OccursAt([d], segment, i);
    forall j | 0 <= j < i ensures !OccursAt([d], segment, j) {
      assert segment[j..j + 1] == [segment[j]];
    }
    assert FindFrom(segment, [d], 0) == Some(i);
    SplitFromFirstPiece(segment, d, i + 1);
  }

  /** When no field name occurs in the message, nothing is collected and the message comes back unchanged. */
  lemma {:induction false} AbsentFieldsLeaveMessage(fields: seq<string>, redaction: string, message: string, separator: string)
    requires forall k :: 0 <= k < |fields| ==> !Contains(message, fields[k])
    ensures AllExtractable(fields, message, separator)
    ensures Collected(fields, message, separator) == []
    ensures RedactAll(message, Collected(fields, message, separator), redaction) == message
  {
    if fields != [] {
      AbsentFieldsLeaveMessage(fields[..|fields| - 1], redaction, message, separator);
    }
  }

  /** Replacing a value that does not occur changes nothing. */
  lemma {:induction false} ReplaceAbsent(s: string, v: string, red: string)
    requires v != [] && !Contains(s, v)
    ensures ReplaceOccurrences(s, v, red) == s
    decreases |s|
  {
    if |s| >= |v| {
      assert !OccursAt(v, s, 0);
      assert !Contains(s[1..], v) by {
        forall i | OccursAt(v, s[1..], i) ensures false {
          assert s[1..][i..i + |v|] == s[i + 1..i + 1 + |v|];
          assert OccursAt(v, s, i + 1);
        }
      }
      ReplaceAbsent(s[1..], v, red);
    }
  }

  /** No occurrence starts inside `before` still holds once its first character is dropped. */
  lemma NoEarlyOccurrenceShift(before: string, v: string, after: string)
    requires before != []
    requires forall i :: 0 <= i < |before| ==> !OccursAt(v, before + v + after, i)
    ensures forall i :: 0 <= i < |before| - 1 ==> !OccursAt(v, before[1..] + v + after, i)
  {
    var s := before + v + after;
    var rest := before[1..] + v + after;
    assert rest == s[1..];
    forall i | 0 <= i < |before| - 1 ensures !OccursAt(v, rest, i) {
      assert !OccursAt(v, s, i + 1);
      assert rest[i..i + |v|] == s[i + 1..i + 1 + |v|];
    }
  }

  /** The first occurrence of the value is replaced, and the scan goes on after it. */
  lemma {:induction false} ReplaceFirstOccurrence(before: string, v: string, after: string, red: string)
    requires v != []
    requires forall i :: 0 <= i < |before| ==> !OccursAt(v, before + v + after, i)
    ensures ReplaceOccurrences(before + v + after, v, red) == before + red + ReplaceOccurrences(after, v, red)
    decreases |before|
  {
    var s := before + v + after;
    if before == [] {
      assert s == v + after;
      assert s[..|v|] == v && s[|v|..] == after;
    } else {
      assert !OccursAt(v, s, 0);
      assert ReplaceOccurrences(s, v, red) == [s[0]] + ReplaceOccurrences(s[1..], v, red);
      NoEarlyOccurrenceShift(before, v, after);
      assert s[1..] == before[1..] + v + after;
      ReplaceFirstOccurrence(before[1..], v, after, red);
      assert [before[0]] + before[1..] == before;
    }
  }

  /** Counting a character in a concatenation. */
  lemma CountConcat(a: string, b: string, c: char)
    ensures multiset(a + b)[c] == multiset(a)[c] + multiset(b)[c]
  {
    assert multiset(a + b) == multiset(a) + multiset(b);
  }

  /** The empty pattern only inserts the redaction, so other characters keep their count. */
  lemma {:induction false} ReplaceEmptyKeepsOtherChars(s: string, red: string, c: char)
    requires c !in red
    ensures multiset(InterleaveRedaction(s, red))[c] == multiset(s)[c]
    decreases |s|
  {
    if s != [] {
      ReplaceEmptyKeepsOtherChars(s[1..], red, c);
      assert s == [s[0]] + s[1..];
      CountConcat([s[0]], s[1..], c);
      CountConcat(red + [s[0]], InterleaveRedaction(s[1..], red), c);
      CountConcat(red, [s[0]], c);
    }
  }

  /** A match is replaced: the count of `c` is kept if it is kept on the rest. */
  lemma MatchStepKeeps(s: string, v: string, red: string, c: char)
    requires v != [] && |s| >= |v| && s[..|v|] == v && c !in v && c !in red
    requires multiset(ReplaceOccurrences(s[|v|..], v, red))[c] == multiset(s[|v|..])[c]
    ensures multiset(ReplaceOccurrences(s, v, red))[c] == multiset(s)[c]
  {
    var rest := s[|v|..];
    assert ReplaceOccurrences(s, v, red) == red + ReplaceOccurrences(rest, v, red);
    assert s == v + rest;
    CountConcat(v, rest, c);
    CountConcat(red, ReplaceOccurrences(rest, v, red), c);
  }

  /** No match at the front: the first character is kept, and so is the count of `c` if it is kept on the rest. */
  lemma SkipStepKeeps(s: string, v: string, red: string, c: char)
    requires v != [] && |s| >= |v| && s[..|v|] != v
    requires multiset(ReplaceOccurrences(s[1..], v, red))[c] == multiset(s[1..])[c]
    ensures multiset(ReplaceOccurrences(s, v, red))[c] == multiset(s)[c]
  {
    var rest := s[1..];
    assert ReplaceOccurrences(s, v, red) == [s[0]] + ReplaceOccurrences(rest, v, red);
    assert s == [s[0]] + rest;
    CountConcat([s[0]], rest, c);
    CountConcat([s[0]], ReplaceOccurrences(rest, v, red), c);
  }

  /** A character found in neither a non-empty value nor the redaction keeps its count. */
  lemma {:induction false} ReplaceOccurrencesKeepsOtherChars(s: string, v: string, red: string, c: char)
    requires v != [] && c !in v && c !in red
    ensures multiset(ReplaceOccurrences(s, v, red))[c] == multiset(s)[c]
    decreases |s|
  {
    if |s| >= |v| {
      if s[..|v|] == v {
        ReplaceOccurrencesKeepsOtherChars(s[|v|..], v, red, c);
        MatchStepKeeps(s, v, red, c);
      } else {
        ReplaceOccurrencesKeepsOtherChars(s[1..], v, red, c);
        SkipStepKeeps(s, v, red, c);
      }
    }
  }

  /** A character found in neither the value nor the redaction keeps its count under `re.sub`. */
  lemma ReplaceKeepsOtherChars(s: string, v: string, red: string, c: char)
    requires c !in v && c !in red
    ensures multiset(ReplaceAll(s, v, red))[c] == multiset(s)[c]
  {
    if v == [] {
      ReplaceEmptyKeepsOtherChars(s, red, c);
    } else {
      ReplaceOccurrencesKeepsOtherChars(s, v, red, c);
    }
  }

  /** With a one-character separator, no collected value contains the separator. */
  lemma {:induction false} CollectedAvoidsSeparator(fields: seq<string>, message: string, c: char)
    requires AllExtractable(fields, message, [c])
    ensures forall k :: 0 <= k < |Collected(fields, message, [c])| ==> c !in Collected(fields, message, [c])[k]
  {
    if fields != [] {
      CollectedAvoidsSeparator(fields[..|fields| - 1], message, c);
      var field := fields[|fields| - 1];
      if Contains(message, field) {
        var segments := Split(message, [c]);
        match FirstContaining(field, segments, 0)
        case None =>
        case Some(j) =>
          var segment := segments[j];
          SplitFromPiecesAvoidSep(message, c, 0);
          SplitAtOccurringChar(segment, segment[|field|]);
          SplitFromPiecesFromString(segment, [segment[|field|]], 0);
          assert c !in DelimitedValue(segment, segment[|field|]);
      }
    }
  }

  /** Replacing, in turn, values free of `c` by a redaction free of `c` keeps the count of `c`. */
  lemma {:induction false} RedactKeepsChar(message: string, values: seq<string>, red: string, c: char)
    requires c !in red
    requires forall k :: 0 <= k < |values| ==> c !in values[k]
    ensures multiset(RedactAll(message, values, red))[c] == multiset(message)[c]
  {
    if values != [] {
      RedactKeepsChar(message, values[..|values| - 1], red, c);
      ReplaceKeepsOtherChars(RedactAll(message, values[..|values| - 1], red), values[|values| - 1], red, c);
    }
  }

  /**
   * Separators stay in place: with a one-character separator that the
   * redaction string does not contain, the output has exactly as many
   * separators as the message.
   */
  lemma FilterKeepsSeparators(fields: seq<string>, redaction: string, message: string, c: char)
    requires AllExtractable(fields, message, [c])
    requires c !in redaction
    ensures multiset(RedactAll(message, Collected(fields, message, [c]), redaction))[c] == multiset(message)[c]
  {
    CollectedAvoidsSeparator(fields, message, c);
    RedactKeepsChar(message, Collected(fields, message, [c]), redaction, c);
  }
}

=== FILE: SessionGate.dfy ===
/**
 * The access gate of the Session-authentication API
 * (0x02-Session_authentication, api/v1/auth/auth.py): exact exclusions as in
 * the Basic API plus wildcard entries, and the lookups of the
 * `Authorization` header and of the session cookie.
 */
module SessionGate {
  import opened Wrappers
  import opened Strings
  import opened BasicGate

  /** The cookie name used when the SESSION_NAME environment variable is unset. */
  const DefaultSessionName: string := "_my_session_id"

  /** An `Auth` object; its only state is the cookie name read at construction. */
  datatype Auth = Auth(sessionName: string)

  /** `Auth.__init__`, given the process environment as a map. */
  function NewAuth(environment: map<string, string>): (a: Auth)
    ensures "SESSION_NAME" !in environment ==> a.sessionName == DefaultSessionName
    ensures "SESSION_NAME" in environment ==> a.sessionName == environment["SESSION_NAME"]
  {
    Auth(if "SESSION_NAME" in environment then environment["SESSION_NAME"] else DefaultSessionName)
  }

  /** An exclusion entry ending in `*`. */
  predicate IsWildcard(entry: string)
  {
    entry != [] && entry[|entry| - 1] == '*'
  }

  /** A wildcard entry excludes a path that contains the entry without its `*`, anywhere. */
  predicate WildcardCovers(entry: string, normalised: string)
  {
    IsWildcard(entry) && Contains(normalised, entry[..|entry| - 1])
  }

  /** The Python exception the gate can raise. */
  datatype Exception = IndexError

  /** No entry is empty. */
  predicate NonEmptyEntries(entries: seq<string>)
  {
    forall k :: 0 <= k < |entries| ==> entries[k] != []
  }

  /** Entry `k` is a wildcard covering the path, and the loop reaches it (no empty entry before it). */
  predicate CoveredAt(normalised: string, entries: seq<string>, from: nat, k: int)
  {
    from <= k < |entries| && WildcardCovers(entries[k], normalised)
    && forall m :: from <= m < k ==> entries[m] != []
  }

  /** Entry `k` is empty and the loop reaches it (no wildcard before it covers the path). */
  predicate EmptyReachedAt(normalised: string, entries: seq<string>, from: nat, k: int)
  {
    from <= k < |entries| && entries[k] == []
    && forall m :: from <= m < k ==> !WildcardCovers(entries[m], normalised)
  }

  /**
   * The wildcard loop over `entries[from..]`: true at the first entry whose
   * stem occurs in the path; indexing the last character of an empty entry
   * raises IndexError.
   */
  function WildcardScan(normalised: string, entries: seq<string>, from: nat): (r: Result<bool, Exception>)
    requires from <= |entries|
    ensures r == Ok(true) <==> exists k :: CoveredAt(normalised, entries, from, k)
    ensures r.Err? <==> exists k :: EmptyReachedAt(normalised, entries, from, k)
    decreases |entries| - from
  {
    if from == |entries| then Ok(false)
    else
      var entry := entries[from];
      if entry == [] then
        assert EmptyReachedAt(normalised, entries, from, from);
        Err(IndexError)
      else if entry[|entry| - 1] == '*' && Contains(normalised, entry[..|entry| - 1]) then
        assert CoveredAt(normalised, entries, from, from);
        Ok(true)
      else
        var next := from + 1;
        ScanStep(normalised, entries, from, next);
        WildcardScan(normalised, entries, next)
  }

  /** Past a non-empty entry that does not cover the path, the loop's outcome is decided by the rest. */
  lemma ScanStep(normalised: string, entries: seq<string>, from: nat, next: nat)
    requires next == from + 1 && from < |entries|
    requires entries[from] != [] && !WildcardCovers(entries[from], normalised)
    ensures (exists k :: CoveredAt(normalised, entries, from, k)) <==> exists k :: CoveredAt(normalised, entries, next, k)
    ensures (exists k :: EmptyReachedAt(normalised, entries, from, k)) <==> exists k :: EmptyReachedAt(normalised, entries, next, k)
  {
    if exists k :: CoveredAt(normalised, entries, next, k) {
      var k :| CoveredAt(normalised, entries, next, k);
      assert CoveredAt(normalised, entries, from, k);
    }
    if exists k :: CoveredAt(normalised, entries, from, k) {
      var k :| CoveredAt(normalised, entries, from, k);
      assert CoveredAt(normalised, entries, next, k);
    }
    if exists k :: EmptyReachedAt(normalised, entries, next, k) {
      var k :| EmptyReachedAt(normalised, entries, next, k);
      assert EmptyReachedAt(normalised, entries, from, k);
    }
    if exists k :: EmptyReachedAt(normalised, entries, from, k) {
      var k :| EmptyReachedAt(normalised, entries, from, k);
      assert EmptyReachedAt(normalised, entries, next, k);
    }
  }

  /**
   * `Auth.require_auth`: true (authentication required) unless some wildcard
   * entry's stem occurs in the normalised path or the normalised path is
   * itself an entry; IndexError when the wildcard loop meets an empty entry
   * before any wildcard matched.
   */
  function RequireAuth(path: Option<string>, excluded: Option<seq<string>>): (r: Result<bool, Exception>)
    requires Examined(path, excluded) ==> path.value != []
    ensures !Examined(path, excluded) ==> r == Ok(true)
    ensures Examined(path, excluded) ==>
      (r.Err? <==> exists k :: EmptyReachedAt(Normalise(path.value), excluded.value, 0, k))
    ensures Examined(path, excluded) ==>
      (r == Ok(false) <==> (exists k :: CoveredAt(Normalise(path.value), excluded.value, 0, k))
                           || (r.Ok? && Normalise(path.value) in excluded.value))
  {
    if path.None? || excluded.None? || excluded.value == [] then Ok(true)
    else
      var normalised := Normalise(path.value);
      match WildcardScan(normalised, excluded.value, 0)
      case Err(e) => Err(e)
      case Ok(hit) =>
        if hit then Ok(false)
        else if normalised in excluded.value then Ok(false)
        else Ok(true)
  }

  /** With no empty entry, the gate never raises and answers as the two exclusion rules say. */
  lemma NonEmptyEntriesNeverRaise(path: string, excluded: seq<string>)
    requires path != [] && NonEmptyEntries(excluded)
    ensures RequireAuth(Some(path), Some(excluded)).Ok?
    ensures RequireAuth(Some(path), Some(excluded)) == Ok(false) <==>
      (exists k :: 0 <= k < |excluded| && WildcardCovers(excluded[k], Normalise(path))) || Normalise(path) in excluded
  {
    var p := Normalise(path);
    if exists k :: 0 <= k < |excluded| && WildcardCovers(excluded[k], p) {
      var k :| 0 <= k < |excluded| && WildcardCovers(excluded[k], p);
      assert CoveredAt(p, excluded, 0, k);
    }
  }

  /** An empty entry raises only when the loop reaches it: a matching wildcard before it wins. */
  lemma EmptyEntryReachedOrNot()
    ensures RequireAuth(Some("/x"), Some(["*", ""])) == Ok(false)
    ensures RequireAuth(Some("/x"), Some(["", "*"])) == Err(IndexError)
  {
    assert Normalise("/x") == "/x/";
    assert OccursAt([], "/x/", 0);
    assert CoveredAt("/x/", ["*", ""], 0, 0);
    assert EmptyReachedAt("/x/", ["", "*"], 0, 0);
  }

  /** A lone `*` excludes every path. */
  lemma LoneStarExcludesEverything(path: string, excluded: seq<string>)
    requires path != [] && NonEmptyEntries(excluded) && "*" in excluded
    ensures RequireAuth(Some(path), Some(excluded)) == Ok(false)
  {
    var k :| 0 <= k < |excluded| && excluded[k] == "*";
    assert OccursAt([], Normalise(path), 0);
    assert WildcardCovers(excluded[k], Normalise(path));
    NonEmptyEntriesNeverRaise(path, excluded);
  }

  /**
   * A wildcard entry `stem + "*"` excludes every path whose normalised form
   * contains `stem` anywhere, not only as a prefix.
   */
  lemma WildcardMatchesAnywhere(path: string, excluded: seq<string>, stem: string, before: string, after: string)
    requires path != [] && NonEmptyEntries(excluded) && stem + "*" in excluded
    requires Normalise(path) == before + stem + after
    ensures RequireAuth(Some(path), Some(excluded)) == Ok(false)
  {
    var k :| 0 <= k < |excluded| && excluded[k] == stem + "*";
    assert excluded[k][..|excluded[k]| - 1] == stem;
    assert OccursAt(stem, Normalise(path), |before|) by {
      assert Normalise(path)[|before|..|before| + |stem|] == stem;
    }
    assert WildcardCovers(excluded[k], Normalise(path));
    NonEmptyEntriesNeverRaise(path, excluded);
  }

  /**
   * An entry that ends neither in `/` nor in `*` never matches a normalised
   * path, so adding it changes no answer.
   */
  lemma UnslashedEntryIsInert(path: string, excluded: seq<string>, entry: string)
    requires path != [] && NonEmptyEntries(excluded)
    requires entry != [] && entry[|entry| - 1] != '/' && entry[|entry| - 1] != '*'
    ensures RequireAuth(Some(path), Some(excluded + [entry])) == RequireAuth(Some(path), Some(excluded))
  {
    var more := excluded + [entry];
    var p := Normalise(path);
    assert p != entry;
    assert p in more <==> p in excluded;
    assert NonEmptyEntries(more);
    NonEmptyEntriesNeverRaise(path, more);
    assert (exists k :: 0 <= k < |more| && WildcardCovers(more[k], p))
       <==> (exists k :: 0 <= k < |excluded| && WildcardCovers(excluded[k], p)) by {
      if exists k :: 0 <= k < |more| && WildcardCovers(more[k], p) {
        var k :| 0 <= k < |more| && WildcardCovers(more[k], p);
        assert k < |excluded| && more[k] == excluded[k];
      }
      if exists k :: 0 <= k < |excluded| && WildcardCovers(excluded[k], p) {
        var k :| 0 <= k < |excluded| && WildcardCovers(excluded[k], p);
        assert more[k] == excluded[k];
      }
    }
    if excluded != [] {
      NonEmptyEntriesNeverRaise(path, excluded);
    } else {
      assert !WildcardCovers(entry, p);
    }
  }

  /** `p` and `p + "/"` are gated alike when `p` has no trailing slash. */
  lemma TrailingSlashIrrelevant(path: string, excluded: Option<seq<string>>)
    requires path != [] && !EndsWithSlash(path)
    ensures RequireAuth(Some(path), excluded) == RequireAuth(Some(path + "/"), excluded)
  {
    assert EndsWithSlash(path + "/");
  }

  /** A wildcard exclusion example. */
  lemma WildcardExample()
    ensures RequireAuth(Some("/api/v1/admin/users"), Some(["/api/v1/admin/*"])) == Ok(false)
  {
    assert "/api/v1/admin/" + "*" == "/api/v1/admin/*";
    WildcardMatchesAnywhere("/api/v1/admin/users", ["/api/v1/admin/*"], "/api/v1/admin/", [], "users/");
  }

  /**
   * `Auth.authorization_header`: None without a request or without an
   * `Authorization` header, otherwise that header's value.
   */
  function AuthorizationHeader(request: Option<Request>): (h: Option<string>)
    ensures h.Some? <==> request.Some? && "Authorization" in request.value.headers
    ensures h.Some? ==> h.value == request.value.headers["Authorization"]
  {
    if request.None? || "Authorization" !in request.value.headers then None
    else Some(request.value.headers["Authorization"])
  }

  /**
   * `Auth.session_cookie`: None without a request, otherwise the value of the
   * cookie named `sessionName`, or None when there is no such cookie.
   */
  function SessionCookie(auth: Auth, request: Option<Request>): (c: Option<string>)
    ensures c.Some? <==> request.Some? && auth.sessionName in request.value.cookies
    ensures c.Some? ==> c.value == request.value.cookies[auth.sessionName]
  {
    match request
    case None => None
    case Some(req) => if auth.sessionName in req.cookies then Some(req.cookies[auth.sessionName]) else None
  }

  /** `Auth.current_user`: the base class resolves nobody. */
  function CurrentUser<U>(request: Option<Request>): (u: Option<U>)
    ensures u.None?
  {
    None
  }
}

=== FILE: Strings.dfy ===
/**
 * The parts of Python's `str` that the core relies on: the `in` operator,
 * `find`, `split` (with and without a limit) and `join`.
 */
module Strings {
  import opened Wrappers

  /** `t` occurs in `s` at index `i`. */
  predicate OccursAt(t: string, s: string, i: int)
  {
    0 <= i && i + |t| <= |s| && s[i..i + |t|] == t
  }

  /** Python's `t in s`: `t` is a substring of `s` (the empty string is in every string). */
  predicate Contains(s: string, t: string)
    ensures t == [] ==> Contains(s, t)
    ensures Contains(s, t) ==> |t| <= |s|
    ensures |t| == |s| ==> (Contains(s, t) <==> t == s)
  {
    assert OccursAt(t, s, 0) <==> |t| <= |s| && s[..|t|] == t;
    exists i :: 0 <= i <= |s| && OccursAt(t, s, i)
  }

  /** Python's `s.find(t, start)`: the first index at or after `start` where `t` occurs. */
  function FindFrom(s: string, t: string, start: nat): (r: Option<nat>)
    requires start <= |s|
    ensures r.Some? ==> start <= r.value && OccursAt(t, s, r.value)
    ensures r.Some? ==> forall j :: start <= j < r.value ==> !OccursAt(t, s, j)
    ensures r.None? ==> forall j :: start <= j ==> !OccursAt(t, s, j)
    decreases |s| - start
  {
    if start + |t| > |s| then None
    else if s[start..start + |t|] == t then Some(start)
    else FindFrom(s, t, start + 1)
  }

  /** Python's `s.find(t)`. */
  function Find(s: string, t: string): (r: Option<nat>)
    ensures r.Some? ==> OccursAt(t, s, r.value) && forall j :: 0 <= j < r.value ==> !OccursAt(t, s, j)
    ensures r.None? <==> !Contains(s, t)
  {
    FindFrom(s, t, 0)
  }

  /** The pieces of `s[start..]` between occurrences of `sep`, scanning left to right. */
  function SplitFrom(s: string, sep: string, start: nat): (parts: seq<string>)
    requires sep != [] && start <= |s|
    ensures |parts| >= 1
    decreases |s| - start
  {
    match FindFrom(s, sep, start)
    case None => [s[start..]]
    case Some(i) => [s[start..i]] + SplitFrom(s, sep, i + |sep|)
  }

  /** Python's `s.split(sep)` for a non-empty separator (an empty one raises ValueError). */
  function Split(s: string, sep: string): (parts: seq<string>)
    requires sep != []
    ensures |parts| >= 1
  {
    SplitFrom(s, sep, 0)
  }

  /** Python's `sep.join(parts)` for a non-empty list. */
  function Join(parts: seq<string>, sep: string): string
    requires |parts| >= 1
  {
    if |parts| == 1 then parts[0] else parts[0] + sep + Join(parts[1..], sep)
  }

  /** Splitting and joining again with the same separator gives back the string. */
  lemma {:induction false} JoinSplitFrom(s: string, sep: string, start: nat)
    requires sep != [] && start <= |s|
    ensures Join(SplitFrom(s, sep, start), sep) == s[start..]
    decreases |s| - start
  {
    match FindFrom(s, sep, start)
    case None =>
    case Some(i) =>
      JoinSplitFrom(s, sep, i + |sep|);
      assert s[start..] == s[start..i] + s[i..i + |sep|] + s[i + |sep|..];
  }

  lemma JoinSplit(s: string, sep: string)
    requires sep != []
    ensures Join(Split(s, sep), sep) == s
  {
    JoinSplitFrom(s, sep, 0);
  }

  /** No piece of a split on a one-character separator contains that character. */
  lemma {:induction false} SplitFromPiecesAvoidSep(s: string, c: char, start: nat)
    requires start <= |s|
    ensures forall k :: 0 <= k < |SplitFrom(s, [c], start)| ==> c !in SplitFrom(s, [c], start)[k]
    decreases |s| - start
  {
    var parts := SplitFrom(s, [c], start);
    match FindFrom(s, [c], start)
    case None =>
      forall m | start <= m < |s| ensures s[m] != c {
        assert !OccursAt([c], s, m);
      }
    case Some(i) =>
      SplitFromPiecesAvoidSep(s, c, i + 1);
      forall m | start <= m < i ensures s[m] != c {
        assert !OccursAt([c], s, m);
      }
  }

  /**
   * The first piece of a split on a one-character separator runs from
   * `start` up to the next occurrence of that character, or to the end.
   */
  lemma SplitFromFirstPiece(s: string, c: char, start: nat)
    requires start <= |s|
    ensures var p := SplitFrom(s, [c], start)[0];
      start + |p| <= |s| && s[start..start + |p|] == p && c !in p
      && (start + |p| == |s| || s[start + |p|] == c)
  {
    SplitFromPiecesAvoidSep(s, c, start);
    match FindFrom(s, [c], start)
    case None =>
    case Some(i) => assert s[i..i + 1] == [c];
  }

  /** Every character of every piece of a split comes from the split string. */
  lemma {:induction false} SplitFromPiecesFromString(s: string, sep: string, start: nat)
    requires sep != [] && start <= |s|
    ensures forall k, x :: 0 <= k < |SplitFrom(s, sep, start)| && x in SplitFrom(s, sep, start)[k] ==> x in s
    decreases |s| - start
  {
    match FindFrom(s, sep, start)
    case None =>
    case Some(i) => SplitFromPiecesFromString(s, sep, i + |sep|);
  }

  /** A character that occurs in `s` splits it into at least two pieces. */
  lemma SplitAtOccurringChar(s: string, c: char)
    requires c in s
    ensures |Split(s, [c])| >= 2
  {
    var i :| 0 <= i < |s| && s[i] == c;
    assert OccursAt([c], s, i);
  }

  /** Cutting `s` around the first occurrence of `sep` at `i`. */
  lemma FirstOccurrenceCut(s: string, sep: string, i: nat)
    requires sep != []
    requires OccursAt(sep, s, i) && forall j :: 0 <= j < i ==> !OccursAt(sep, s, j)
    ensures s == s[..i] + sep + s[i + |sep|..]
    ensures !Contains(s[..i], sep)
  {
    assert s == s[..i] + s[i..i + |sep|] + s[i + |sep|..];
    forall j | 0 <= j <= i && OccursAt(sep, s[..i], j) ensures false {
      assert s[..i][j..j + |sep|] == s[j..j + |sep|];
      assert OccursAt(sep, s, j);
    }
  }

  /**
   * Python's `s.split(sep, 1)`: the text before the first `sep` and the rest,
   * or just `[s]` when `sep` does not occur. An empty `sep` raises ValueError in Python.
   */
  function SplitOnce(s: string, sep: string): (parts: seq<string>)
    requires sep != []
    ensures 1 <= |parts| <= 2
    ensures |parts| == 1 <==> !Contains(s, sep)
    ensures |parts| == 1 ==> parts[0] == s
    ensures |parts| == 2 ==> s == parts[0] + sep + parts[1] && !Contains(parts[0], sep)
  {
    match Find(s, sep)
    case None => [s]
    case Some(i) =>
      FirstOccurrenceCut(s, sep, i);
      [s[..i], s[i + |sep|..]]
  }
}

=== FILE: UserAuth.dfy ===
/**
 * The user-authentication service (0x03-user_authentication_service/auth.py):
 * registration, login check, sessions and password reset over the `users`
 * table. bcrypt is modelled by its key-derivation function `kdf`, given to
 * the service; salts and uuid4 tokens, which the source draws at random,
 * are parameters of the operations.
 */
module UserAuth {
  import opened Wrappers
  import opened Users
  import opened Db

  /** bcrypt's salt string (`$2b$12$` and 22 characters) heads every hash it makes. */
  const SaltLength: nat := 29

  /** The key derivation: (password, salt) to the digest stored after the salt. */
  type Kdf = (string, string) -> string

  /** `_hash_password`: the salt followed by the digest of the password under it. */
  function HashPassword(kdf: Kdf, password: string, salt: string): (hashed: string)
    requires |salt| == SaltLength
    ensures |hashed| >= SaltLength && hashed[..SaltLength] == salt
  {
    salt + kdf(password, salt)
  }

  /** `bcrypt.checkpw`: re-derive the digest with the salt read from the hash. */
  predicate CheckPassword(kdf: Kdf, password: string, hashed: string)
    ensures CheckPassword(kdf, password, hashed) <==>
      |hashed| >= SaltLength && hashed == HashPassword(kdf, password, hashed[..SaltLength])
  {
    |hashed| >= SaltLength && kdf(password, hashed[..SaltLength]) == hashed[SaltLength..]
  }

  /** A password always checks against its own hash, whatever the salt. */
  lemma CheckAcceptsOwnHash(kdf: Kdf, password: string, salt: string)
    requires |salt| == SaltLength
    ensures CheckPassword(kdf, password, HashPassword(kdf, password, salt))
  {
    var h := HashPassword(kdf, password, salt);
    assert h[SaltLength..] == kdf(password, salt);
  }

  /** A key derivation that never maps two passwords to one digest under the same salt. */
  ghost predicate InjectiveKdf(kdf: Kdf)
  {
    forall p, q, salt :: kdf(p, salt) == kdf(q, salt) ==> p == q
  }

  /** Under such a derivation, no other password checks against a hash. */
  lemma CheckRejectsOtherPasswords(kdf: Kdf, password: string, other: string, salt: string)
    requires InjectiveKdf(kdf) && other != password && |salt| == SaltLength
    ensures !CheckPassword(kdf, other, HashPassword(kdf, password, salt))
  {
    var h := HashPassword(kdf, password, salt);
    assert h[SaltLength..] == kdf(password, salt);
  }

  /** Two salts give two different hashes of one password, and both check. */
  lemma SaltsGiveDistinctHashes(kdf: Kdf, password: string, salt1: string, salt2: string)
    requires |salt1| == SaltLength && |salt2| == SaltLength && salt1 != salt2
    ensures HashPassword(kdf, password, salt1) != HashPassword(kdf, password, salt2)
    ensures CheckPassword(kdf, password, HashPassword(kdf, password, salt1))
    ensures CheckPassword(kdf, password, HashPassword(kdf, password, salt2))
  {
    CheckAcceptsOwnHash(kdf, password, salt1);
    CheckAcceptsOwnHash(kdf, password, salt2);
  }

  function EmailFilter(email: string): seq<Filter>
  {
    [("email", StrValue(email))]
  }

  /** The position of the first user with this email, as `find_user_by(email=...)` finds it. */
  lemma FindByEmail(users: seq<User>, email: string)
    ensures var r := FindUserBy(users, EmailFilter(email));
      (r.Ok? || r == Err(NoResultFound))
      && (r == Err(NoResultFound) <==> forall j :: 0 <= j < |users| ==> users[j].email != email)
      && (r.Ok? ==> users[r.value].email == email && forall j :: 0 <= j < r.value ==> users[j].email != email)
  {
    assert ColumnName(Email) == "email";
    FindByColumn(users, Email, StrValue(email));
  }

  /** The position of the first user whose nullable column `c` equals `token` (IS NULL for None). */
  lemma FindByToken(users: seq<User>, c: Column, token: Option<string>)
    requires c == SessionId || c == ResetToken
    ensures var r := FindUserBy(users, [(ColumnName(c), Nullable(token))]);
      (r.Ok? || r == Err(NoResultFound))
      && (r == Err(NoResultFound) <==> forall j :: 0 <= j < |users| ==> Holder(users[j], c) != token)
      && (r.Ok? ==> Holder(users[r.value], c) == token && forall j :: 0 <= j < r.value ==> Holder(users[j], c) != token)
  {
    FindByColumn(users, c, Nullable(token));
    forall u: User ensures ValueOf(u, c) == Nullable(token) <==> Holder(u, c) == token {
    }
  }

  /** Position `i` holds the first user with this email. */
  predicate FirstWithEmail(users: seq<User>, i: int, email: string)
  {
    0 <= i < |users| && users[i].email == email && forall j :: 0 <= j < i ==> users[j].email != email
  }

  /** Position `i` holds the first user whose column `c` (session id or reset token) is `token`. */
  predicate FirstHolding(users: seq<User>, i: int, c: Column, token: Option<string>)
    requires c == SessionId || c == ResetToken
  {
    0 <= i < |users| && Holder(users[i], c) == token && forall j :: 0 <= j < i ==> Holder(users[j], c) != token
  }

  /** The session id or the reset token of a user. */
  function Holder(u: User, c: Column): Option<string>
    requires c == SessionId || c == ResetToken
  {
    if c == SessionId then u.sessionId else u.resetToken
  }

  /**
   * `Auth.valid_login`: never raises; false for an unknown email, and
   * otherwise whether the password checks against the hash of the first
   * user with that email.
   */
  function ValidLogin(kdf: Kdf, users: seq<User>, email: string, password: string): (ok: bool)
    ensures (forall j :: 0 <= j < |users| ==> users[j].email != email) ==> !ok
    ensures ok ==> exists j :: 0 <= j < |users| && users[j].email == email
                              && CheckPassword(kdf, password, users[j].hashedPassword)
    ensures forall i :: FirstWithEmail(users, i, email) ==>
      (ok <==> CheckPassword(kdf, password, users[i].hashedPassword))
  {
    FindByEmail(users, email);
    match FindUserBy(users, EmailFilter(email))
    case Ok(i) => CheckPassword(kdf, password, users[i].hashedPassword)
    case Err(_) => false
  }

  /**
   * `Auth.get_user_from_session_id`: None for a None id, without a lookup;
   * otherwise the first user holding that session id, or None.
   */
  function GetUserFromSessionId(users: seq<User>, sessionId: Option<string>): (u: Option<User>)
    ensures sessionId.None? ==> u.None?
    ensures u.Some? ==> u.value in users && u.value.sessionId == sessionId
    ensures sessionId.Some? && (exists j :: 0 <= j < |users| && users[j].sessionId == sessionId) ==> u.Some?
    ensures sessionId.Some? ==> forall i :: FirstHolding(users, i, SessionId, sessionId) ==> u == Some(users[i])
  {
    match sessionId
    case None => None
    case Some(s) =>
      FindByToken(users, SessionId, sessionId);
      match FindUserBy(users, [("session_id", StrValue(s))])
      case Ok(i) => Some(users[i])
      case Err(_) => None
  }

  /** `Auth.register_user` on the table: ValueError for a known email, else one appended user. */
  function RegisterStep(users: seq<User>, email: string, hashed: string): (st: Step<Result<User, Exception>>)
    ensures st.result.Err? <==> exists j :: 0 <= j < |users| && users[j].email == email
    ensures st.result.Err? ==> st.result.error == ValueError && st.users == users
    ensures st.result.Ok? ==> st.result.value == User(|users| + 1, email, hashed, None, None)
                              && st.users == users + [st.result.value]
  {
    FindByEmail(users, email);
    match FindUserBy(users, EmailFilter(email))
    case Ok(_) => Step(users, Err(ValueError))
    case Err(_) =>
      var user := User(|users| + 1, email, hashed, None, None);
      Step(users + [user], Ok(user))
  }

  /**
   * `Auth.create_session` on the table: None and no change for an unknown
   * email; otherwise the first user with that email gets `token` as session id.
   */
  function CreateSessionStep(users: seq<User>, email: string, token: string): (st: Step<Option<string>>)
    ensures st.result.Some? <==> exists j :: 0 <= j < |users| && users[j].email == email
    ensures st.result.None? ==> st.users == users
    ensures forall i :: FirstWithEmail(users, i, email) ==>
      st == Step(users[i := users[i].(sessionId := Some(token))], Some(token))
    ensures |st.users| == |users|
    ensures forall j :: 0 <= j < |users| ==>
      st.users[j] == users[j] || (users[j].email == email && st.users[j] == users[j].(sessionId := Some(token)))
  {
    FindByEmail(users, email);
    match FindUserBy(users, EmailFilter(email))
    case Err(_) => Step(users, None)
    case Ok(i) => Step(users[i := users[i].(sessionId := Some(token))], Some(token))
  }

  /**
   * `Auth.get_reset_password_token` on the table: ValueError for an unknown
   * email; otherwise the first user with that email gets `token` as reset token.
   */
  function ResetTokenStep(users: seq<User>, email: string, token: string): (st: Step<Result<string, Exception>>)
    ensures st.result.Ok? <==> exists j :: 0 <= j < |users| && users[j].email == email
    ensures st.result.Ok? ==> st.result.value == token
    ensures st.result.Err? ==> st.result.error == ValueError && st.users == users
    ensures forall i :: FirstWithEmail(users, i, email) ==>
      st == Step(users[i := users[i].(resetToken := Some(token))], Ok(token))
    ensures |st.users| == |users|
    ensures forall j :: 0 <= j < |users| ==>
      st.users[j] == users[j] || (users[j].email == email && st.users[j] == users[j].(resetToken := Some(token)))
  {
    FindByEmail(users, email);
    match FindUserBy(users, EmailFilter(email))
    case Err(_) => Step(users, Err(ValueError))
    case Ok(i) => Step(users[i := users[i].(resetToken := Some(token))], Ok(token))
  }

  /**
   * `Auth.update_password` on the table, as written: the first user whose
   * reset token equals `token` (IS NULL when `token` is None) gets the new
   * hash and a cleared reset token; ValueError when there is none.
   */
  function UpdatePasswordStep(users: seq<User>, token: Option<string>, hashed: string): (st: Step<Result<(), Exception>>)
    ensures st.result.Ok? <==> exists j :: 0 <= j < |users| && users[j].resetToken == token
    ensures st.result.Err? ==> st.result.error == ValueError && st.users == users
    ensures forall i :: FirstHolding(users, i, ResetToken, token) ==>
      st == Step(users[i := users[i].(hashedPassword := hashed, resetToken := None)], Ok(()))
    ensures |st.users| == |users|
    ensures forall j :: 0 <= j < |users| ==>
      st.users[j] == users[j]
      || (users[j].resetToken == token && st.users[j] == users[j].(hashedPassword := hashed, resetToken := None))
  {
    FindByToken(users, ResetToken, token);
    match FindUserBy(users, [("reset_token", Nullable(token))])
    case Err(_) => Step(users, Err(ValueError))
    case Ok(i) => Step(users[i := users[i].(hashedPassword := hashed, resetToken := None)], Ok(()))
  }

  /** A user that registered can log in with the password it registered with. */
  lemma RegisterThenLogin(kdf: Kdf, users: seq<User>, email: string, password: string, salt: string)
    requires |salt| == SaltLength
    requires RegisterStep(users, email, HashPassword(kdf, password, salt)).result.Ok?
    ensures ValidLogin(kdf, RegisterStep(users, email, HashPassword(kdf, password, salt)).users, email, password)
  {
    var after := RegisterStep(users, email, HashPassword(kdf, password, salt)).users;
    assert after[|users|].email == email;
    FindByEmail(after, email);
    CheckAcceptsOwnHash(kdf, password, salt);
  }

  /** Registering an email a second time raises ValueError and leaves the table alone. */
  lemma RegisterTwiceFails(users: seq<User>, email: string, hashed: string, hashed2: string)
    requires RegisterStep(users, email, hashed).result.Ok?
    ensures var after := RegisterStep(users, email, hashed).users;
      RegisterStep(after, email, hashed2) == Step(after, Err(ValueError))
  {
    var after := RegisterStep(users, email, hashed).users;
    assert after[|users|].email == email;
  }

  /**
   * With a token no user holds yet, creating a session and then resolving
   * the token gives the first user with that email, now holding the token.
   */
  lemma CreateSessionThenGet(users: seq<User>, email: string, token: string)
    requires FindUserBy(users, EmailFilter(email)).Ok?
    requires forall j :: 0 <= j < |users| ==> users[j].sessionId != Some(token)
    ensures var i := FindUserBy(users, EmailFilter(email)).value;
      GetUserFromSessionId(CreateSessionStep(users, email, token).users, Some(token))
        == Some(users[i].(sessionId := Some(token)))
  {
    var i := FindUserBy(users, EmailFilter(email)).value;
    var after := CreateSessionStep(users, email, token).users;
    assert after == users[i := users[i].(sessionId := Some(token))];
    FindByToken(after, SessionId, Some(token));
    var k := FindUserBy(after, [("session_id", StrValue(token))]).value;
    assert Holder(after[i], SessionId) == Some(token);
  }

  /**
   * Password reset: with a fresh reset token, asking for the token and then
   * redeeming it succeeds, after which the new password logs in; under an
   * injective key derivation no other password does.
   */
  lemma ResetThenLogin(kdf: Kdf, users: seq<User>, email: string, token: string,
                       newPassword: string, salt: string, other: string)
    requires FindUserBy(users, EmailFilter(email)).Ok?
    requires forall j :: 0 <= j < |users| ==> users[j].resetToken != Some(token)
    requires |salt| == SaltLength
    ensures var issued := ResetTokenStep(users, email, token);
      var redeemed := UpdatePasswordStep(issued.users, Some(token), HashPassword(kdf, newPassword, salt));
      issued.result == Ok(token) && redeemed.result == Ok(())
      && ValidLogin(kdf, redeemed.users, email, newPassword)
      && (InjectiveKdf(kdf) && other != newPassword ==> !ValidLogin(kdf, redeemed.users, email, other))
  {
    FindByEmail(users, email);
    var i := FindUserBy(users, EmailFilter(email)).value;
    var issued := ResetTokenStep(users, email, token);
    var hashed := HashPassword(kdf, newPassword, salt);
    assert issued.users == users[i := users[i].(resetToken := Some(token))];
    FindByToken(issued.users, ResetToken, Some(token));
    var k := FindUserBy(issued.users, [("reset_token", StrValue(token))]).value;
    assert Holder(issued.users[i], ResetToken) == Some(token);
    var redeemed := UpdatePasswordStep(issued.users, Some(token), hashed);
    assert redeemed.users == issued.users[i := issued.users[i].(hashedPassword := hashed, resetToken := None)];
    FindByEmail(redeemed.users, email);
    var m := FindUserBy(redeemed.users, EmailFilter(email)).value;
    assert m == i by {
      assert redeemed.users[i].email == email;
      assert forall j :: 0 <= j < |users| ==> redeemed.users[j].email == users[j].email;
    }
    CheckAcceptsOwnHash(kdf, newPassword, salt);
    if InjectiveKdf(kdf) && other != newPassword {
      CheckRejectsOtherPasswords(kdf, newPassword, other, salt);
    }
  }

  /**
   * A reset token that at most one user holds cannot be redeemed twice: the
   * second attempt raises ValueError.
   */
  lemma RedeemTwiceFails(users: seq<User>, token: string, hashed: string, hashed2: string)
    requires forall i, j :: (0 <= i < |users| && 0 <= j < |users|
      && users[i].resetToken == Some(token) && users[j].resetToken == Some(token)) ==> i == j
    ensures var first := UpdatePasswordStep(users, Some(token), hashed);
      UpdatePasswordStep(first.users, Some(token), hashed2) == Step(first.users, Err(ValueError))
  {
    var first := UpdatePasswordStep(users, Some(token), hashed);
    FindByToken(users, ResetToken, Some(token));
    var found := FindUserBy(users, [("reset_token", StrValue(token))]);
    if found.Ok? {
      var i := found.value;
      assert first.users == users[i := users[i].(hashedPassword := hashed, resetToken := None)];
      assert Holder(users[i], ResetToken) == Some(token);
    }
  }

  /**
   * As written, `update_password(None, ...)` looks up `reset_token IS NULL`,
   * so it resets the password of the first user with no outstanding reset
   * request and reports success.
   */
  lemma UpdatePasswordWithoutToken(users: seq<User>, hashed: string, i: nat)
    requires i < |users| && users[i].resetToken.None?
    requires forall j :: 0 <= j < i ==> users[j].resetToken.Some?
    ensures UpdatePasswordStep(users, None, hashed) == Step(users[i := users[i].(hashedPassword := hashed)], Ok(()))
  {
    FindByToken(users, ResetToken, None);
    assert Holder(users[i], ResetToken) == None;
  }

  /**
   * `update_password` as evidently intended: a missing token is refused, so
   * only a user holding an outstanding reset token can have the password changed.
   */
  function UpdatePasswordGuardedStep(users: seq<User>, token: Option<string>, hashed: string): (st: Step<Result<(), Exception>>)
    ensures token.None? ==> st == Step(users, Err(ValueError))
    ensures st.result.Ok? <==> token.Some? && exists j :: 0 <= j < |users| && users[j].resetToken == token
    ensures |st.users| == |users|
    ensures forall j :: 0 <= j < |users| && users[j].resetToken.None? ==> st.users[j] == users[j]
    ensures forall i :: token.Some? && FirstHolding(users, i, ResetToken, token) ==>
      st == Step(users[i := users[i].(hashedPassword := hashed, resetToken := None)], Ok(()))
    ensures st.result.Err? ==> st.result.error == ValueError && st.users == users
  {
    if token.None? then Step(users, Err(ValueError)) else UpdatePasswordStep(users, token, hashed)
  }

  /**
   * `destroy_session` as evidently intended: `update_user(user_id,
   * session_id=None)` with an update that really assigns the column.
   */
  function DestroySessionIntended(users: seq<User>, userId: int): (st: Step<Result<(), Exception>>)
    ensures |st.users| == |users|
    ensures st.result == Err(NoResultFound) <==> forall j :: 0 <= j < |users| ==> users[j].id != userId
    ensures st.result == Err(NoResultFound) ==> st.users == users
  {
    assert WellTypedUpdates([("session_id", Null)]) by {
      assert ColumnName(SessionId) == "session_id";
    }
    UpdateUserIntended(users, userId, [("session_id", Null)])
  }

  /**
   * With the intended update, destroying the session of the only holder of
   * a session id clears it, and the id no longer resolves.
   */
  lemma IntendedDestroyEndsSession(users: seq<User>, i: nat, token: string)
    requires IdsArePositions(users) && i < |users| && users[i].sessionId == Some(token)
    requires forall j :: 0 <= j < |users| && j != i ==> users[j].sessionId != Some(token)
    ensures var st := DestroySessionIntended(users, users[i].id);
      st == Step(users[i := users[i].(sessionId := None)], Ok(()))
      && GetUserFromSessionId(st.users, Some(token)).None?
  {
    var updates := [("session_id", Null)];
    assert ColumnNamed("session_id") == Some(SessionId);
    FindById(users, i + 1);
    var after := users[i := SetColumn(users[i], SessionId, Null)];
    assert ApplyUpdatesFrom(users, i, updates, 0) == ApplyUpdatesFrom(after, i, updates, 1);
    assert after == users[i := users[i].(sessionId := None)];
  }

  /** The service object: the DB it owns and the key derivation bcrypt stands for. */
  class Auth {
    const db: DB
    const kdf: Kdf

    ghost predicate Valid()
      reads this, db
    {
      db.Valid()
    }

    /** `Auth.__init__`: a fresh, empty DB. */
    constructor (kdf: Kdf)
      ensures Valid() && fresh(db) && db.users == [] && this.kdf == kdf
    {
      db := new DB();
      this.kdf := kdf;
    }

    /** `Auth.register_user`, with `salt` standing for `bcrypt.gensalt()`. */
    method RegisterUser(email: string, password: string, salt: string) returns (r: Result<User, Exception>)
      requires Valid() && |salt| == SaltLength
      modifies db
      ensures Valid()
      ensures Step(db.users, r) == RegisterStep(old(db.users), email, HashPassword(kdf, password, salt))
    {
      var found := FindUserBy(db.users, EmailFilter(email));
      if found.Ok? {
        return Err(ValueError);
      }
      var hashed := HashPassword(kdf, password, salt);
      var user := db.AddUser(email, hashed);
      return Ok(user);
    }

    /** `Auth.create_session`, with `token` standing for the new uuid4. */
    method CreateSession(email: string, token: string) returns (r: Option<string>)
      requires Valid()
      modifies db
      ensures Valid()
      ensures Step(db.users, r) == CreateSessionStep(old(db.users), email, token)
    {
      var found := FindUserBy(db.users, EmailFilter(email));
      if found.Err? {
        return None;
      }
      var user := db.users[found.value];
      user := user.(sessionId := Some(token));
      db.Commit(user);
      return Some(token);
    }

    /** `Auth.get_reset_password_token`, with `token` standing for the new uuid4. */
    method GetResetPasswordToken(email: string, token: string) returns (r: Result<string, Exception>)
      requires Valid()
      modifies db
      ensures Valid()
      ensures Step(db.users, r) == ResetTokenStep(old(db.users), email, token)
    {
      var found := FindUserBy(db.users, EmailFilter(email));
      if found.Err? {
        return Err(ValueError);
      }
      var user := db.users[found.value];
      user := user.(resetToken := Some(token));
      db.Commit(user);
      return Ok(token);
    }

    /** `Auth.update_password`, with `salt` standing for `bcrypt.gensalt()`. */
    method UpdatePassword(resetToken: Option<string>, password: string, salt: string) returns (r: Result<(), Exception>)
      requires Valid() && |salt| == SaltLength
      modifies db
      ensures Valid()
      ensures Step(db.users, r) == UpdatePasswordStep(old(db.users), resetToken, HashPassword(kdf, password, salt))
    {
      var found := FindUserBy(db.users, [("reset_token", Nullable(resetToken))]);
      if found.Err? {
        return Err(ValueError);
      }
      var user := db.users[found.value];
      user := user.(hashedPassword := HashPassword(kdf, password, salt), resetToken := None);
      db.Commit(user);
      return Ok(());
    }

    /**
     * `Auth.destroy_session`: `update_user(user_id, session_id=None)`, which
     * as written changes no row (see `DB.UpdateUser`), so the session id
     * stays in place.
     */
    method DestroySession(userId: int) returns (r: Result<(), Exception>)
      requires Valid()
      ensures r == Err(NoResultFound) <==> forall j :: 0 <= j < |db.users| ==> db.users[j].id != userId
      ensures r == Ok(()) <==> 1 <= userId <= |db.users|
    {
      r := db.UpdateUser(userId, [("session_id", Null)]);
      assert KnownKeys([("session_id", Null)]) by {
        assert ColumnName(SessionId) == "session_id";
        SingleFilter(User(0, [], [], None, None), SessionId, Null);
      }
      if 1 <= userId <= |db.users| {
        assert db.users[userId - 1].id == userId;
      }
    }
  }

  /**
   * Logging out as the service does it (resolve the session id, then
   * `destroy_session` of that user): the call reports success, yet the same
   * session id still resolves to a user holding it.
   */
  method DestroyedSessionStillResolves(auth: Auth, token: string)
    returns (r: Result<(), Exception>, still: Option<User>)
    requires auth.Valid() && GetUserFromSessionId(auth.db.users, Some(token)).Some?
    ensures r == Ok(())
    ensures still.Some? && still.value.sessionId == Some(token) && still.value in auth.db.users
  {
    var user := GetUserFromSessionId(auth.db.users, Some(token)).value;
    var j :| 0 <= j < |auth.db.users| && auth.db.users[j] == user;
    r := auth.DestroySession(user.id);
    still := GetUserFromSessionId(auth.db.users, Some(token));
  }
}

=== FILE: Users.dfy ===
/**
 * The `users` table's record (0x03-user_authentication_service/user.py):
 * five columns, of which only `session_id` and `reset_token` are nullable.
 */
module Users {
  import opened Wrappers

  /** A row of `users`; `id` is the integer primary key. */
  datatype User = User(
    id: int,
    email: string,
    hashedPassword: string,
    sessionId: Option<string>,
    resetToken: Option<string>)

  /** The mapped columns, the only attributes the model treats as present on a User. */
  datatype Column = Id | Email | HashedPassword | SessionId | ResetToken

  /** A value a keyword argument can carry; `Null` is Python's None (SQL NULL). */
  datatype Value = IntValue(i: int) | StrValue(s: string) | Null

  function ColumnName(c: Column): string
  {
    match c
    case Id => "id"
    case Email => "email"
    case HashedPassword => "hashed_password"
    case SessionId => "session_id"
    case ResetToken => "reset_token"
  }

  /** The column a keyword names, if any. */
  function ColumnNamed(name: string): (c: Option<Column>)
    ensures c.Some? ==> ColumnName(c.value) == name
    ensures c.None? ==> forall col: Column :: ColumnName(col) != name
  {
    if name == "id" then Some(Id)
    else if name == "email" then Some(Email)
    else if name == "hashed_password" then Some(HashedPassword)
    else if name == "session_id" then Some(SessionId)
    else if name == "reset_token" then Some(ResetToken)
    else None
  }

  /** Column names are distinct, so a column is found again from its name. */
  lemma ColumnNameRoundTrip(c: Column)
    ensures ColumnNamed(ColumnName(c)) == Some(c)
  {
  }

  function Nullable(o: Option<string>): Value
  {
    match o
    case None => Null
    case Some(s) => StrValue(s)
  }

  /** What a column holds for a user; a missing session id or reset token is NULL. */
  function ValueOf(u: User, c: Column): Value
  {
    match c
    case Id => IntValue(u.id)
    case Email => StrValue(u.email)
    case HashedPassword => StrValue(u.hashedPassword)
    case SessionId => Nullable(u.sessionId)
    case ResetToken => Nullable(u.resetToken)
  }

  /** Non-nullable columns never hold NULL; nullable ones do exactly when empty. */
  lemma NullOnlyInNullableColumns(u: User, c: Column)
    ensures ValueOf(u, c) == Null <==>
      (c == SessionId && u.sessionId.None?) || (c == ResetToken && u.resetToken.None?)
  {
  }
}

=== FILE: Wrappers.dfy ===
/** Option and Result, standing for Python's `None` and for raised exceptions. */
module Wrappers {

  datatype Option<+T> = None | Some(value: T)

  datatype Result<+T, +E> = Ok(value: T) | Err(error: E)
}
